=== FILE: README.md ===
# FieldCall signup, payment and agent-number core, in Dafny

FieldCall is a marketing site for an AI phone receptionist. Its logic sits in a
React client and a handful of Netlify serverless handlers that proxy Stripe
(checkout), Supabase (auth and the `user_profiles` table), GoHighLevel (the CRM)
and n8n (number provisioning). This project models that logic with each external
call replaced by a value: a service's reply is an input of the model, and a call
whose reply is ignored is an output. With that done, every handler and client
operation is a total, pure function, and its precedence and ordering rules can be
stated and proved.

Layout, one module per source file plus shared helpers:

- `wrappers.dfy` (`Wrappers`): `Option`.
- `text.dfy` (`Text`): the digit filter, ASCII lower-casing, substring search,
  the blank test behind `trim()`, and decimal rendering.
- `json.dfy` (`Json`): flat JSON objects as key/value sequences.
  - Property read is last-wins; object spread is `Set`.
  - `Serialise`/`Parse` model `JSON.stringify`/`JSON.parse` on flat string
    objects, with a proved round trip.
- `http.dfy` (`Http`): methods, the three outcomes of parsing a request body
  (malformed, `null`, an object), env-var presence, and the 2xx test.
- `checkout_session.dfy`, `payment_verifier.dfy`, `save_agent_number.dfy`,
  `buy_number.dfy`, `set_super_admin.dfy`, `create_admin_account.dfy`: the six
  handlers.
- `profile_store.dfy` (`ProfileStore`): the profile table the privileged handlers
  read and write.
- `signup_form.dfy`, `auth_context.dfy`, `dashboard.dfy`, `admin_dashboard.dfy`,
  `protected_route.dfy`, `role_based_redirect.dfy`: the client components and the
  auth context.
- `flows.dfy` (`Flows`): properties of the pieces together. It covers the checkout
  → provider → verifier → sign-up round trip, and the purchase relay feeding the
  agent-number callback.

Where the code departs from the behaviour its names and messages suggest, the model follows the code:

- A failed profile fetch in the auth context leaves the user signed in. The state
  keeps the old profile; it does not sign the user out.
- The signup form reports a paid session whose snapshot cannot be recovered with
  the same message as an unpaid one ("Payment was not completed successfully").

## Model

| member | source | states |
|---|---|---|
| Json.Get | netlify/functions/buy-number.js:42 | A property read finds a value exactly when the key is present, and then it is the value of the key's last occurrence |
| Json.Set | src/contexts/AuthContext.tsx:174 | Object spread with one key overridden: that key reads the new value and every other key reads as before |
| Json.GetDistinct | netlify/functions/verify-payment.js:60-61 | In an object without repeated keys, each entry's key reads back that entry's value |
| Json.ParseSerialise | netlify/functions/verify-payment.js:60 | Parsing the text `JSON.stringify` produced for a flat object of strings gives the same object back, escapes included |
| Json.SerialiseInjective | netlify/functions/create-stripe-session.js:90 | Different objects serialise to different texts |
| Json.ToJsString | netlify/functions/save-agent-number.js:44-46 | `?.toString()` is undefined exactly for a missing or null value and is the string itself for a string |
| Text.Digits | src/components/Dashboard.tsx:109 | The digit filter keeps only digits and never lengthens its input |
| Text.DigitsAppend | src/components/Dashboard.tsx:109 | Filtering digits distributes over concatenation |
| Text.ContainsTransitive | src/components/AdminDashboard.tsx:116-120 | A substring of a substring is a substring |
| Text.ContainsLower | src/components/AdminDashboard.tsx:117-120 | Lower-casing both sides preserves a substring occurrence |
| Text.NatToStringValue | netlify/functions/buy-number.js:110 | The decimal rendering of a status code reads back as the same number |
| Http.MethodGate | netlify/functions/create-stripe-session.js:10-24 | OPTIONS is answered as a preflight, any method other than POST is refused, and only POST proceeds |
| CheckoutSession.SiteUrl | netlify/functions/create-stripe-session.js:66 | The origin header when present, the production site otherwise |
| CheckoutSession.PriceOf | netlify/functions/create-stripe-session.js:51-63 | Only `starter` (9900 cents) and `pro` (37500 cents) have a price; every other plan id has none |
| CheckoutSession.BodyText | netlify/functions/create-stripe-session.js:95-112 | The response text parses back to the error/details or sessionId/url object the handler meant; a missing `details` is dropped |
| CheckoutSession.Handle | netlify/functions/create-stripe-session.js:10-113 | Method gate, then key check, then missing form/plan (400), then unknown plan (400). A session is requested only for a known plan, charging its table price once in USD. Both return urls are built on the site url. The metadata holds the plan and a serialised form that parses back to the submitted form. Every configured POST with a form and a known plan requests a session, and 200 comes exactly when the provider created it |
| PaymentVerifier.Recover | netlify/functions/verify-payment.js:53-76 | Paid iff the status is `paid`. An unpaid session recovers nothing. A paid one recovers the stored snapshot exactly when it parses, and the plan with it. The email and total pass through |
| PaymentVerifier.Handle | netlify/functions/verify-payment.js:10-88 | Method gate, key check, unreadable body (500), missing id (400). Every configured POST naming a session retrieves exactly that id, and no other request retrieves anything. 200 comes exactly when the provider returned the session, with its recovered verification; a provider error gives 500 with its message |
| SignupForm.Snapshot | src/components/SignupForm.tsx:16-36 | The form becomes a flat object whose keys are the nineteen field names in order |
| SignupForm.SnapshotDistinct | src/components/SignupForm.tsx:16-36 | The snapshot repeats no key |
| SignupForm.SnapshotReads | src/components/SignupForm.tsx:16-36 | Reading the snapshot by any field name gives back that field of the form |
| SignupForm.SnapshotEmail | src/components/SignupForm.tsx:103 | The snapshot's `email` is the email typed into the form |
| SignupForm.SnapshotPassword | src/components/SignupForm.tsx:103 | The snapshot's `password` is the password typed into the form |
| SignupForm.DispatchUrl | src/components/SignupForm.tsx:47-59 | A present `session_id` triggers verification of exactly that id. Only without one does `payment=cancelled` show the cancellation message |
| SignupForm.SubmitError | src/components/SignupForm.tsx:229-241 | The required-field message iff a required field is empty. The mismatch message iff they are filled but the passwords differ. No error otherwise |
| SignupForm.SubmitDisabled | src/components/SignupForm.tsx:869 | The button is disabled exactly while submitting or paying, or when submitting would fail validation |
| SignupForm.CheckoutRedirect | src/components/SignupForm.tsx:251-292 | Blank or unparseable text fails first, with the Stripe-configuration message only when the text names the key. A non-2xx answer shows the handler's error or a fallback. A redirect happens exactly on a 2xx answer naming a url, and goes to that url |
| SignupForm.HandleSubmit | src/components/SignupForm.tsx:225-293 | An invalid form sends nothing and shows its validation message. A valid one posts its full snapshot and plan, and the answer decides the outcome |
| SignupForm.Project | src/components/SignupForm.tsx:104-118 | Each profile column is paired, in order, with the value of the form field it is copied from |
| SignupForm.ProfilePayload | src/components/SignupForm.tsx:103-121 | The sign-up profile carries each of the fifteen columns from its form field, the selected plan, and `payment_status` `completed`. It has no password or confirmation key |
| SignupForm.LeadFor | src/components/SignupForm.tsx:138-160 | The CRM lead is a `lead` in the fixed location. Each of its nine contact fields is copied from its form field. Its eight custom fields come in the posted order, each with its CRM id and the value of its source: a form field, or the selected plan for the plan field |
| Flows.LeadReadsBack | src/components/SignupForm.tsx:150-159 | Reading the posted lead's custom fields by id, as the auth context reads a contact, gives back each field's form value and the selected plan |
| Flows.LeadHasNoAgentNumber | src/contexts/AuthContext.tsx:308-310 | A freshly posted lead has no agent-number field, so the resolver finds no number on it |
| SignupForm.CreateAccountAfterPayment | src/components/SignupForm.tsx:100-176 | Sign-up uses the snapshot's email, password and profile payload. A sign-up error ends it with that message (or a fallback), posting no lead and not navigating. Otherwise the lead is posted, its failure ignored, and the user is sent to the dashboard |
| SignupForm.PaymentReturn | src/components/SignupForm.tsx:61-98 | An account is created exactly for a 2xx, paid verification that carries a snapshot, and from that snapshot. An empty body fails to parse. A non-2xx answer shows its error or a fallback. Unpaid and unrecoverable read the same |
| AuthContext.ApplyProfileFetch | src/contexts/AuthContext.tsx:109-132 | A failed fetch changes nothing. A fetched row becomes the profile and sets the agent flag, and replaces the shown number only with a non-empty stored number |
| AuthContext.Bootstrap | src/contexts/AuthContext.tsx:37-66 | Loading ends. No session, or an error, clears the user fields. A session signs its user in with the fetched profile, its agent flag and its stored number when non-empty (the number shown before otherwise) |
| AuthContext.OnAuthStateChange | src/contexts/AuthContext.tsx:71-95 | SIGNED_OUT or an event without a session user clears everything. Otherwise that user is signed in with the fetched profile, its agent flag and its stored number when non-empty |
| AuthContext.SignUp | src/contexts/AuthContext.tsx:159-190 | An auth error or a missing user returns early with nothing inserted. The inserted row is the given data with `id` and `email` overridden. Only a full success signs the user in, showing the fetched profile, its agent flag and its non-empty stored number. Loading always ends |
| AuthContext.SignIn | src/contexts/AuthContext.tsx:193-213 | An error is returned, and only for an auth failure. A returned user is signed in with the profile fetched by email, its agent flag and its non-empty stored number |
| AuthContext.SignOut | src/contexts/AuthContext.tsx:216-248 | The user fields are cleared at once while loading, and stay cleared whatever the remote sign-out reports |
| AuthContext.UpdateProfile | src/contexts/AuthContext.tsx:250-276 | Without a user nothing is written and the no-user error returns. Otherwise the user's own row gets the data stamped with the time, and the profile is re-fetched unless the write failed |
| AuthContext.RefreshProfile | src/contexts/AuthContext.tsx:278-282 | The profile is re-fetched only when somebody is signed in, and a fetched row sets the profile, the agent flag and a non-empty stored number |
| AuthContext.FindContact | src/contexts/AuthContext.tsx:308 | The first contact with exactly that email, or none when no contact has it |
| AuthContext.FetchContactAgrees | src/contexts/AuthContext.tsx:329-347 | The filter-then-first lookup finds the same contact as `find` |
| AuthContext.FieldValue | src/contexts/AuthContext.tsx:309-310 | `find` on the custom fields: the value of the first field with the id, undefined when no field has it |
| AuthContext.FieldValueAt | src/contexts/AuthContext.tsx:309-310 | A field whose id no earlier field carries is the one read back |
| AuthContext.ResolveAgentNumber | src/contexts/AuthContext.tsx:308-310 | The number is the agent-number field of the first contact with that email when that field is set. It is the sentinel when there is no such contact or the field is unset |
| AuthContext.FetchUserRetellNumber | src/contexts/AuthContext.tsx:284-327 | The stored number wins without a lookup. Without a profile email nothing happens. Otherwise the CRM number or the sentinel is shown; a failed lookup is swallowed. The write goes out exactly for a real number the profile does not yet claim |
| AuthContext.RetellConverges | src/contexts/AuthContext.tsx:313-322 | Once the write lands, the next resolution takes the fast path and changes nothing |
| AuthContext.RetellIdempotent | src/contexts/AuthContext.tsx:284-327 | Resolving again against the same CRM reply leaves the state as it is |
| AuthContext.CleanAfterSession | src/contexts/AuthContext.tsx:43-93 | With nobody signed in, no profile, number or agent flag survives the session transitions |
| AuthContext.CleanAfterAccount | src/contexts/AuthContext.tsx:159-248 | Sign-up, sign-in and sign-out keep that invariant |
| AuthContext.CleanAfterProfile | src/contexts/AuthContext.tsx:250-327 | The update, the refresh and the resolver keep it too |
| AuthContext.SignOutSettles | src/contexts/AuthContext.tsx:75-82 | The SIGNED_OUT event after a sign-out changes nothing, and signing out twice is signing out once |
| SaveAgentNumber.Clean | netlify/functions/save-agent-number.js:43-47 | A missing or null value cleans to empty. Otherwise a leading `=` is removed, only the first one (`==x` cleans to `=x`), and nothing else changes |
| SaveAgentNumber.Handle | netlify/functions/save-agent-number.js:10-201 | Method gate, malformed body (400), empty cleaned number or id (400), then configuration (500). Every valid, configured request looks up its cleaned user id. No rows gives 404 and any other lookup error 500, neither with an update. The update writes the cleaned number and the flag on the looked-up row. Success comes exactly when it returns a row |
| SaveAgentNumber.CleanedNumber | netlify/functions/save-agent-number.js:43-146 | A number sent with one leading `=` is stored without it, on the row of the cleaned id, whether or not the id carried a `=` |
| SaveAgentNumber.CleanedBoth | netlify/functions/save-agent-number.js:43-146 | An id and a number both sent with a leading `=` update the row of the bare id to the bare number |
| BuyNumber.Suggestion | netlify/functions/buy-number.js:113-115 | The advice for 404, for 405, and for every other status |
| BuyNumber.WorkflowData | netlify/functions/buy-number.js:120-169 | An unreadable or blank answer gives an empty object; text that is not JSON is wrapped as a message; JSON passes through |
| BuyNumber.Handle | netlify/functions/buy-number.js:10-192 | A request is forwarded, unchanged, exactly when it has truthy `user_id` and `email`. A 200 reply means exactly that the workflow answered 2xx, and the error mapping (500 / 502 with details and advice) holds. The callback fires exactly for parsed data reporting a number. It overrides `user_id` and `email` with the request's |
| ProfileStore.WithEmail | netlify/functions/set-super-admin.js:78-82 | The rows with the email: each has it, and every row that has it is among them |
| ProfileStore.FirstWithEmail | netlify/functions/create-admin-account.js:139-143 | The position of the first row with the email, if any |
| ProfileStore.SetRoleWhere | netlify/functions/set-super-admin.js:78-82 | Every row with the email gets the role; every other row is unchanged |
| ProfileStore.SetRoleWhereSelects | netlify/functions/set-super-admin.js:82-110 | The rows the update returns are the matching rows with the new role |
| ProfileStore.SetRoleWhereIdempotent | netlify/functions/set-super-admin.js:78-82 | Setting a role twice is setting it once |
| ProfileStore.SetRoleWhereKeepsIds | netlify/functions/set-super-admin.js:78-82 | The update keeps the primary key |
| ProfileStore.WithEmailSnoc | netlify/functions/create-admin-account.js:188-205 | An inserted row joins the rows with its own email and no other |
| ProfileStore.WithEmailUpdate | netlify/functions/create-admin-account.js:161-170 | An in-place update that keeps the email keeps the number and position of matching rows |
| SetSuperAdmin.ExpectedSecret | netlify/functions/set-super-admin.js:42 | The configured secret, or the built-in default when none is set |
| SetSuperAdmin.Handle | netlify/functions/set-super-admin.js:10-123 | Only a successful update changes the table. A `null` body gives 500. The secret check (401) comes before the email check (400), then the configuration (500), then the update's error (500 with its message). No matching rows gives 404, and at least one gives 200. Success promotes every row with the email and returns the first |
| SetSuperAdmin.PromoteIdempotent | netlify/functions/set-super-admin.js:78-112 | Promoting again changes nothing, and the primary key survives |
| CreateAdminAccount.FindAuth | netlify/functions/create-admin-account.js:106-107 | The auth user found has the email, and none is found only when no auth user has it |
| CreateAdminAccount.UpsertProfile | netlify/functions/create-admin-account.js:138-220 | A check error gives 500. Exactly one profile with the email is updated in place to super_admin, linked to the auth user; otherwise a new super_admin row is inserted. The only failures are the service faults and an id clash |
| CreateAdminAccount.Handle | netlify/functions/create-admin-account.js:1-246 | The checks come in order: method, body (a `null` body gives 500 "Internal server error"), secret set (500), secret matches (401), fields (400), configuration (500). The store is touched, and success reported, only past all of them |
| CreateAdminAccount.AdmittedHandle | netlify/functions/create-admin-account.js:10-105 | Once the method, the body, the secret, the fields and the configuration all pass, the call is exactly the service calls for the request's email |
| CreateAdminAccount.Provision | netlify/functions/create-admin-account.js:105-235 | An existing auth user with the email is reused. When none has it, one is added exactly when creation succeeds, and a failed creation stops the call with 500. Without faults the call succeeds unless the profile step would clash with another row's id. Success names the auth user, whose profile is then a super_admin with that email |
| CreateAdminAccount.AuthWithEmail | netlify/functions/create-admin-account.js:106-107 | The auth users listed under an email are exactly those with that email |
| CreateAdminAccount.AuthStaysUnique | netlify/functions/create-admin-account.js:105-135 | A call never gives an email a second auth user |
| CreateAdminAccount.UpsertKeepsIds | netlify/functions/create-admin-account.js:157-220 | The profile step keeps the profile table's primary key |
| CreateAdminAccount.UpsertSettles | netlify/functions/create-admin-account.js:158-220 | A successful profile step on an email with at most one profile leaves exactly one, a super_admin with the user's id |
| CreateAdminAccount.UpsertSettled | netlify/functions/create-admin-account.js:158-184 | On an already settled profile the step succeeds, rewrites it in place and keeps the table's size |
| CreateAdminAccount.KeepsUniqueIds | netlify/functions/create-admin-account.js:157-220 | The profile table's primary key survives the call |
| CreateAdminAccount.Settles | netlify/functions/create-admin-account.js:105-235 | A success on an email with at most one profile leaves exactly one profile for it, a super_admin linked to its auth user |
| CreateAdminAccount.SettledStays | netlify/functions/create-admin-account.js:105-235 | Calling again on a settled email succeeds, creates no auth user and no profile, and keeps it settled |
| Dashboard.FormatPhoneNumber | src/components/Dashboard.tsx:105-120 | Empty input and the sentinel are shown as given. Ten digits get the `(AAA) BBB-CCCC` shape and eleven led by 1 the `+1 (AAA) BBB-CCCC` shape. Anything else is shown as given |
| Dashboard.FormatKeepsDigits | src/components/Dashboard.tsx:109-119 | Formatting shows exactly the digits it was given |
| Dashboard.FormatIdempotent | src/components/Dashboard.tsx:105-120 | Formatting a formatted number changes nothing |
| Dashboard.CopyNumber | src/components/Dashboard.tsx:95-101 | The number is copied exactly when it is non-empty and not the sentinel, and it is copied unformatted, as stored, not in the formatted form the page shows |
| Dashboard.PlanDetails | src/components/Dashboard.tsx:187-194 | The three known plans get their details; any other id gets the placeholder |
| Dashboard.PlanDetailsAgreeWithCheckout | src/components/Dashboard.tsx:189-191 | For each purchasable plan, the price shown is the checkout's charge in dollars and the allowance shown is the checkout's description |
| Dashboard.BusinessTypeLabel | src/components/Dashboard.tsx:196-209 | The nine known keys get their label; any other value is shown unchanged |
| Dashboard.BusinessTypeLabels | src/components/Dashboard.tsx:196-209 | Labelling a label changes nothing, and no two keys share a label |
| AdminDashboard.FilterUsers | src/components/AdminDashboard.tsx:115-125 | The listed rows are an order-preserving sub-list of the users. Each passes the search and the role test, and every user passing both is listed |
| AdminDashboard.FilterCounts | src/components/AdminDashboard.tsx:115-125 | Each shown row is listed as often as it occurs in the list and a hidden row never, so repeated rows are all kept |
| AdminDashboard.FilterMembership | src/components/AdminDashboard.tsx:115-125 | A row is listed exactly when it is a user that passes both tests |
| AdminDashboard.EmptySearchShowsAll | src/components/AdminDashboard.tsx:117-122 | An empty search with every role lists all users |
| AdminDashboard.Narrowing | src/components/AdminDashboard.tsx:116-120 | A search term containing another lists no row the shorter term hides |
| AdminDashboard.ComputeStats | src/components/AdminDashboard.tsx:67-69 | The total is the list length, the other two counts are bounded by it, and the admin count is zero iff nobody is an admin. The agent count is the number of positions whose row is flagged `has_agent_number` |
| AdminDashboard.AgentsCounted | src/components/AdminDashboard.tsx:69 | Counting the flagged rows of any suffix gives the number of flagged positions in it |
| AdminDashboard.AdminsAreFilterable | src/components/AdminDashboard.tsx:67-122 | The admin count equals the rows the list shows when filtered to admin plus those shown when filtered to super_admin |
| AdminDashboard.RoleLabel | src/components/AdminDashboard.tsx:398 | `Super Admin` exactly for super_admin, `Admin` exactly for admin, `User` for every other role |
| AdminDashboard.RoleBadge | src/components/AdminDashboard.tsx:138-147 | The super-admin and admin badges go exactly to those roles |
| AdminDashboard.RoleCellAgrees | src/components/AdminDashboard.tsx:138-147 | The default badge goes with the `User` label, and the rows labelled as administrators are those the admin count counts |
| ProtectedRoute.Guard | src/components/ProtectedRoute.tsx:10-42 | A spinner exactly while loading. Then a replacing navigation home exactly when nobody is signed in, and the page exactly when somebody is |
| ProtectedRoute.GuardIgnoresIdentity | src/components/ProtectedRoute.tsx:11-41 | Only whether somebody is signed in matters, not who |
| ProtectedRoute.SignOutLeavesPage | src/components/ProtectedRoute.tsx:21-38 | Signing out shows the spinner, then leaves the page for home |
| RoleBasedRedirect.Decide | src/components/RoleBasedRedirect.tsx:10-34 | Nothing happens while loading or without user and profile. Administrators go to `/admin` exactly from `/` or `/login`. Non-administrators go to `/dashboard` exactly from `/`, `/login` or `/admin`. Every navigation replaces |
| RoleBasedRedirect.RedirectSettles | src/components/RoleBasedRedirect.tsx:15-29 | At the page a redirect leads to, the effect does nothing more |
| RoleBasedRedirect.AsWiredMisroutesAdmins | src/components/RoleBasedRedirect.tsx:6-29 | As wired, a loaded super administrator is sent from `/` and from `/admin` to `/dashboard` |
| RoleBasedRedirect.ByRoleRoutesAdmins | src/components/RoleBasedRedirect.tsx:16-29 | With the flags read off the profile role, administrators reach and keep `/admin` and members are kept out |
| Flows.CheckoutRoundTrip | src/components/SignupForm.tsx:61-121 | A valid form's checkout is accepted. The provider's return triggers verification of that session. Once paid, the account is created with the form's own email, password and profile. Unpaid, none is created |
| Flows.CreatedSessionRedirects | src/components/SignupForm.tsx:262-283 | The form follows a created session to exactly the url the handler returned |
| Flows.SessionRedirects | src/components/SignupForm.tsx:262-286 | A 200 answer carrying a session is not blank, parses, and redirects to its url |
| Flows.FailureShown | src/components/SignupForm.tsx:277-279 | A failure the checkout handler reports is shown with its own error message |
| Flows.PurchaseIsSaved | netlify/functions/buy-number.js:132-147 | A reported purchase reaches the callback as an update of the requesting user's row to the cleaned reported number. It is dropped only when the id or the number cleans to nothing |

## Findings

| source | as written | input that shows it | evidently intended | confidence | as-written member | corrected member |
|---|---|---|---|---|---|---|
| src/components/RoleBasedRedirect.tsx:6 | reads `isAdmin` and `isSuperAdmin` from the auth context, whose value (src/contexts/AuthContext.tsx:349-362) defines neither, so both are undefined | a loaded user whose profile role is `super_admin`, on `/` | administrators go to `/admin` and may stay there | high; not executed. src/App.tsx mounts neither this component nor an `/admin` route, so the misrouting is latent in the app as shipped | RoleBasedRedirect.AsWiredMisroutesAdmins | RoleBasedRedirect.ByRoleRoutesAdmins |

## Left out

- Network, timers and concurrency.
  - Every external call is a value, either an input reply or an output request.
  - The 1 s redirect delay and the 2 s and 5 s status resets are left out, and so
    is the 30 s login timeout.
  - The visibility and unload auto-logout is left out.
  - The auth event's racing with profile fetches is left out.
- Headers, CORS and logging: every handler's `headers` and `console` output.
- Diagnostic response fields, which carry no decision: `debug`, `debug_info`,
  `webhook_url`, `stack` and `success`. The fixed success `message` texts of
  buy-number (netlify/functions/buy-number.js:177), save-agent-number
  (netlify/functions/save-agent-number.js:181) and create-admin-account
  (netlify/functions/create-admin-account.js:227) are dropped too. Two messages
  are modelled: set-super-admin's `message` naming the email (`SetSuperAdmin.Promoted`),
  and the `{message: text}` wrap of a non-JSON workflow answer (`BuyNumber.WorkflowData`).
- JSON beyond flat objects.
  - `Json.Parse` accepts exactly the compact text `JSON.stringify` writes for a
    flat object of strings.
  - White space, numbers, nesting and arrays in a reply are read as "does not
    parse". This matters only for texts no handler in the model produces.
- Request field types: only string values of request fields are modelled. The
  destructured fields are `formData`, `selectedPlan`, `session_id`, `email`,
  `password` and `secret`. The exceptions are `buy-number` and
  `save-agent-number`, which take JSON scalars with integer numbers only.
- Numbers: `Json.JsValue` numbers are integers. Fractions and doubles beyond
  2^53 are not represented. Rendering through `toString()` always uses plain
  decimal digits, so JavaScript's exponent form (`1e21` as `1e+21`) is not
  modelled.
- Dashboard.PlanDetails: the lookup through the object prototype is not modelled.
  An inherited name such as `constructor` yields a truthy prototype member in the
  source, not the placeholder; the model gives the placeholder.
- Dashboard.BusinessTypeLabel: the lookup through the object prototype is not
  modelled. An inherited name such as `toString` yields a prototype member in the
  source, not the key itself; the model gives the key unchanged.
- AdminDashboard.FilterUsers: the search lower-cases ASCII letters only, while the
  source uses JavaScript's `toLowerCase`, which covers all of Unicode and depends
  on context. A company "ÉCOLE" searched with "école" is listed by the source and
  not by the model. The model has no Unicode case tables, which is why.
- AdminDashboard.FilterMembership: holds for the ASCII search test only; under
  JavaScript's `toLowerCase` the set of listed rows differs for non-ASCII letters,
  as for FilterUsers above.
- AdminDashboard.Narrowing: true for ASCII lower-casing only. JavaScript's
  context-sensitive mappings break it: "ΑΣ" lower-cases to "ας" (final sigma) and
  "ΑΣΑ" to "ασα", so a row with company "ΑΣΑ" is listed for the longer term "ΑΣΑ"
  and hidden for the shorter term "ΑΣ" it contains.
- Text.ContainsLower: holds for the ASCII map only; it is false for JavaScript's
  `toLowerCase`, by the same final-sigma example.
- CheckoutSession.PriceOf: the lookup through the object prototype is not
  modelled, because only own keys are. A plan id such as `constructor` is
  treated as unknown.
- Engine error texts: messages the JavaScript engine would produce are stand-ins
  (`Http.SyntaxError`, `Http.TypeError`). Examples are a `null` body being
  destructured and the parse of an empty response.
- `listUsers` pagination in create-admin-account: the auth users are one list.
- Provider-side limits on metadata size are left out; the provider is assumed to
  keep metadata as given.
- The dashboard's own effects and handlers are left out: `handleBuyNumber`,
  `sendData`, `handleSubmit` and `handleInputChange`. Their requests are the
  relay and CRM calls already modelled from the other side.
- The profile-triggered effect that re-runs the number resolver
  (src/contexts/AuthContext.tsx:102-106) is left out. The resolver itself is
  modelled, together with its convergence.
- The password passed to the auth service is left out: the auth service is an
  abstract reply.
- `localStorage`/`sessionStorage` clearing is left out, and so is
  `history.replaceState`.
- AdminDashboard: `recentSignups` depends on the clock and is left out.
  - The admin redirect and the user fetch (src/components/AdminDashboard.tsx:38-49)
    read the same undefined flags as the role redirect, so they are covered by the
    finding above.
  - `updateUserRole` is left out.
- The header's role caption (src/components/AdminDashboard.tsx:193) and the role
  icons are left out, because they carry no decision beyond the row label.

=== FILE: admin_dashboard.dfy ===
/**
 * The pure parts of the administrator dashboard (src/components/AdminDashboard.tsx):
 * the search-and-role filter over the user list, the headline counts, and the
 * role label and badge of each row.
 */
module AdminDashboard {
  import Text

  /** The profile columns the filter, the counts and the row labels read. */
  datatype UserRow = UserRow(email: string, firstName: string, lastName: string, company: string,
                             role: string, hasAgentNumber: bool)

  const AllRoles := "all"

  /** The search term occurs, ignoring ASCII case, in the email, either name or the company. */
  predicate MatchesSearch(u: UserRow, term: string) {
    var t := Text.Lower(term);
    || Text.Contains(Text.Lower(u.email), t)
    || Text.Contains(Text.Lower(u.firstName), t)
    || Text.Contains(Text.Lower(u.lastName), t)
    || Text.Contains(Text.Lower(u.company), t)
  }

  predicate MatchesRole(u: UserRow, roleFilter: string) {
    roleFilter == AllRoles || u.role == roleFilter
  }

  predicate Shown(u: UserRow, term: string, roleFilter: string) {
    MatchesSearch(u, term) && MatchesRole(u, roleFilter)
  }

  /** `a` is `b` with some elements dropped, the rest kept in order. */
  predicate SubSeq<T(==)>(a: seq<T>, b: seq<T>)
    decreases |b|
  {
    if |a| == 0 then true
    else if |b| == 0 then false
    else if a[0] == b[0] then SubSeq(a[1..], b[1..])
    else SubSeq(a, b[1..])
  }

  /** `filteredUsers`: the rows kept, in list order. */
  function FilterUsers(users: seq<UserRow>, term: string, roleFilter: string): (r: seq<UserRow>)
    ensures SubSeq(r, users)
    ensures forall i | 0 <= i < |r| :: Shown(r[i], term, roleFilter)
    ensures forall i | 0 <= i < |users| && Shown(users[i], term, roleFilter) :: users[i] in r
  {
    if |users| == 0 then []
    else
      var rest := FilterUsers(users[1..], term, roleFilter);
      if Shown(users[0], term, roleFilter) then [users[0]] + rest else rest
  }

  /** A shown row is listed as often as it occurs in the list, a hidden one never:
      the filter drops no repeated row. */
  lemma {:induction false} FilterCounts(users: seq<UserRow>, term: string, roleFilter: string)
    ensures forall u :: multiset(FilterUsers(users, term, roleFilter))[u]
                          == if Shown(u, term, roleFilter) then multiset(users)[u] else 0
  {
    if |users| > 0 {
      FilterCounts(users[1..], term, roleFilter);
      assert users == [users[0]] + users[1..];
    }
  }

  /** A row is listed exactly when it is in the list and passes both tests. */
  lemma {:induction false} FilterMembership(users: seq<UserRow>, term: string, roleFilter: string, u: UserRow)
    ensures u in FilterUsers(users, term, roleFilter) <==> u in users && Shown(u, term, roleFilter)
  {
    var r := FilterUsers(users, term, roleFilter);
    if u in r {
      SubSeqMembers(r, users);
    }
  }

  lemma {:induction false} SubSeqMembers<T>(a: seq<T>, b: seq<T>)
    requires SubSeq(a, b)
    ensures forall x | x in a :: x in b
    decreases |b|
  {
    if |a| > 0 {
      if a[0] == b[0] {
        SubSeqMembers(a[1..], b[1..]);
        assert forall x | x in a :: x == a[0] || x in a[1..];
      } else {
        SubSeqMembers(a, b[1..]);
      }
    }
  }

  /** The initial view, an empty search and every role, lists everybody. */
  lemma {:induction false} EmptySearchShowsAll(users: seq<UserRow>)
    ensures FilterUsers(users, "", AllRoles) == users
  {
    if |users| > 0 {
      Text.ContainsEmpty(Text.Lower(users[0].email));
      EmptySearchShowsAll(users[1..]);
    }
  }

  /** Typing more narrows: a term that contains another lists no row the shorter one hides. */
  lemma {:induction false} Narrowing(users: seq<UserRow>, term: string, longer: string, roleFilter: string, u: UserRow)
    requires Text.Contains(longer, term)
    requires u in FilterUsers(users, longer, roleFilter)
    ensures u in FilterUsers(users, term, roleFilter)
  {
    FilterMembership(users, longer, roleFilter, u);
    FilterMembership(users, term, roleFilter, u);
    var l := Text.Lower(longer);
    Text.ContainsLower(longer, term);
    if Text.Contains(Text.Lower(u.email), l) {
      Text.ContainsTransitive(Text.Lower(u.email), l, Text.Lower(term));
    } else if Text.Contains(Text.Lower(u.firstName), l) {
      Text.ContainsTransitive(Text.Lower(u.firstName), l, Text.Lower(term));
    } else if Text.Contains(Text.Lower(u.lastName), l) {
      Text.ContainsTransitive(Text.Lower(u.lastName), l, Text.Lower(term));
    } else {
      Text.ContainsTransitive(Text.Lower(u.company), l, Text.Lower(term));
    }
  }

  const Admin := "admin"
  const SuperAdmin := "super_admin"

  predicate IsAdminRole(role: string) {
    role == Admin || role == SuperAdmin
  }

  function CountAdmins(users: seq<UserRow>): (n: nat)
    ensures n <= |users|
  {
    if |users| == 0 then 0 else (if IsAdminRole(users[0].role) then 1 else 0) + CountAdmins(users[1..])
  }

  function CountWithAgents(users: seq<UserRow>): (n: nat)
    ensures n <= |users|
  {
    if |users| == 0 then 0 else (if users[0].hasAgentNumber then 1 else 0) + CountWithAgents(users[1..])
  }

  datatype Stats = Stats(totalUsers: nat, adminUsers: nat, usersWithAgents: nat)

  /** The headline counts. */
  function ComputeStats(users: seq<UserRow>): (s: Stats)
    ensures s.totalUsers == |users|
    ensures s.adminUsers <= s.totalUsers && s.usersWithAgents <= s.totalUsers
    ensures s.adminUsers == 0 <==> forall i | 0 <= i < |users| :: !IsAdminRole(users[i].role)
    // the agent count is the number of rows flagged as holding an agent number
    ensures s.usersWithAgents == |AgentRows(users, 0)|
  {
    AdminsNone(users);
    AgentsCounted(users, 0);
    assert users[0..] == users;
    Stats(|users|, CountAdmins(users), CountWithAgents(users))
  }

  /** The positions, from `k` on, of the rows flagged as holding an agent number. */
  function AgentRows(users: seq<UserRow>, k: nat): set<nat> {
    set i: nat | k <= i < |users| && users[i].hasAgentNumber
  }

  /** Counting flagged rows of a suffix counts their positions. */
  lemma {:induction false} AgentsCounted(users: seq<UserRow>, k: nat)
    requires k <= |users|
    ensures CountWithAgents(users[k..]) == |AgentRows(users, k)|
    decreases |users| - k
  {
    if k < |users| {
      AgentsCounted(users, k + 1);
      assert users[k..][1..] == users[k + 1..];
      var rest := AgentRows(users, k + 1);
      if users[k].hasAgentNumber {
        assert AgentRows(users, k) == {k} + rest;
        assert k !in rest;
      } else {
        assert AgentRows(users, k) == rest;
      }
    } else {
      assert AgentRows(users, k) == {};
    }
  }

  lemma {:induction false} AdminsNone(users: seq<UserRow>)
    ensures CountAdmins(users) == 0 <==> forall i | 0 <= i < |users| :: !IsAdminRole(users[i].role)
  {
    if |users| > 0 {
      AdminsNone(users[1..]);
      assert forall i | 1 <= i < |users| :: users[i] == users[1..][i - 1];
    }
  }

  /** The admin count is what the list shows when filtered to each admin role. */
  lemma {:induction false} AdminsAreFilterable(users: seq<UserRow>)
    ensures ComputeStats(users).adminUsers
              == |FilterUsers(users, "", Admin)| + |FilterUsers(users, "", SuperAdmin)|
  {
    if |users| > 0 {
      AdminsAreFilterable(users[1..]);
      Text.ContainsEmpty(Text.Lower(users[0].email));
    }
  }

  datatype Badge = SuperAdminBadge | AdminBadge | DefaultBadge

  /** The role cell of a row: its label and its badge colour. */
  function RoleLabel(role: string): (l: string)
    ensures l == "Super Admin" <==> role == SuperAdmin
    ensures l == "Admin" <==> role == Admin
    ensures l == "User" <==> !IsAdminRole(role)
  {
    if role == SuperAdmin then "Super Admin" else if role == Admin then "Admin" else "User"
  }

  function RoleBadge(role: string): (b: Badge)
    ensures b.SuperAdminBadge? <==> role == SuperAdmin
    ensures b.AdminBadge? <==> role == Admin
  {
    if role == SuperAdmin then SuperAdminBadge else if role == Admin then AdminBadge else DefaultBadge
  }

  /** The label and the badge agree, and the rows labelled as administrators are
      exactly the rows the admin count counts. */
  lemma {:induction false} RoleCellAgrees(role: string)
    ensures RoleBadge(role).DefaultBadge? <==> RoleLabel(role) == "User"
    ensures RoleLabel(role) != "User" <==> CountAdmins([UserRow("", "", "", "", role, false)]) == 1
  {
  }
}

=== FILE: auth_context.dfy ===
/**
 * The client auth state (src/contexts/AuthContext.tsx): a record of the signed-in
 * user, their profile row, the agent number shown ("retell"), the agent flag and
 * a loading flag, with one transition function per operation the context offers.
 * Replies of the auth service, the profile table and the CRM are inputs; calls
 * whose result the context ignores are outputs.
 */
module AuthContext {
  import opened Wrappers
  import opened Http
  import Json

  datatype User = User(id: string, email: Option<string>)

  /** The profile row fields the context reads; `agentNumber` None is null. */
  datatype Profile = Profile(id: string, email: Option<string>, role: string, hasAgentNumber: bool, agentNumber: Option<string>)

  datatype State = State(user: Option<User>, profile: Option<Profile>, retell: Option<string>, hasAgentNumber: bool, loading: bool)

  /** The state on mount: nobody signed in, loading. */
  const Initial := State(None, None, None, false, true)

  /** The four user fields cleared, with the given loading flag. */
  function Cleared(loading: bool): State {
    State(None, None, None, false, loading)
  }

  /** Nobody signed in implies nothing about anybody shown. */
  predicate Clean(s: State) {
    s.user.None? ==> s.profile.None? && s.retell.None? && !s.hasAgentNumber
  }

  /** The reply of a single-row profile select (by id or by email). */
  datatype ProfileFetch = FetchFailed | Fetched(profile: Profile)

  /** `t` shows the fetched row `p`: the profile, its agent flag, and its stored
      number when that is non-empty, the number shown before otherwise. */
  predicate Loaded(before: State, t: State, p: Profile) {
    && t.profile == Some(p) && t.hasAgentNumber == p.hasAgentNumber
    && (Present(p.agentNumber) ==> t.retell == p.agentNumber)
    && (!Present(p.agentNumber) ==> t.retell == before.retell)
  }

  /** `fetchUserProfile` / `fetchUserProfileByEmail`: an error leaves everything as it was. */
  function ApplyProfileFetch(s: State, f: ProfileFetch): (t: State)
    ensures f.FetchFailed? ==> t == s
    ensures t.user == s.user && t.loading == s.loading
    ensures f.Fetched? ==> t.profile == Some(f.profile) && t.hasAgentNumber == f.profile.hasAgentNumber
    // the shown number is replaced only by a non-empty stored number
    ensures f.Fetched? && Present(f.profile.agentNumber) ==> t.retell == f.profile.agentNumber
    ensures f.Fetched? && !Present(f.profile.agentNumber) ==> t.retell == s.retell
  {
    match f
    case FetchFailed => s
    case Fetched(p) =>
      s.(profile := Some(p), hasAgentNumber := p.hasAgentNumber,
         retell := if Present(p.agentNumber) then p.agentNumber else s.retell)
  }

  // ---------------------------------------------------------------------------
  // Session bootstrap and auth events

  /** `getSession`: it failed, found no session, or found one for a user. */
  datatype SessionReply = SessionFailed | NoSession | Found(user: User)

  function Bootstrap(s: State, reply: SessionReply, fetch: ProfileFetch): (t: State)
    ensures !t.loading
    ensures !reply.Found? ==> t == Cleared(false)
    ensures reply.Found? ==> t.user == Some(reply.user)
    ensures reply.Found? && fetch.Fetched? ==> Loaded(s, t, fetch.profile)
    ensures reply.Found? && fetch.FetchFailed? ==> t == s.(user := Some(reply.user), loading := false)
  {
    match reply
    case Found(u) => ApplyProfileFetch(s.(user := Some(u)), fetch).(loading := false)
    case _ => Cleared(false)
  }

  datatype AuthEvent = SignedOut | OtherEvent

  /** The `onAuthStateChange` listener. */
  function OnAuthStateChange(s: State, event: AuthEvent, sessionUser: Option<User>, fetch: ProfileFetch): (t: State)
    ensures !t.loading
    ensures event == SignedOut || sessionUser.None? ==> t == Cleared(false)
    ensures event != SignedOut && sessionUser.Some? ==>
              t.user == sessionUser
              && (fetch.Fetched? ==> Loaded(s, t, fetch.profile))
              && (fetch.FetchFailed? ==> t == s.(user := sessionUser, loading := false))
  {
    if event == SignedOut || sessionUser.None? then Cleared(false)
    else ApplyProfileFetch(s.(user := sessionUser), fetch).(loading := false)
  }

  // ---------------------------------------------------------------------------
  // Sign-up, sign-in, sign-out, profile update and refresh

  datatype SignUpReply = SignUpFailed(message: string) | NoUserCreated | Created(user: User)

  /** The final state, the profile row inserted (None: none) and the returned error. */
  datatype SignUpResult = SignUpResult(state: State, insert: Option<Json.Object<Option<string>>>, error: Option<string>)

  const NoAccountMessage := "Failed to create user account"

  /** `signUp`. The insert reply is `insertError` (None: the insert succeeded). */
  function SignUp(s: State, email: Option<string>, profileData: Json.Object<Option<string>>,
                  auth: SignUpReply, insertError: Option<string>, fetch: ProfileFetch): (r: SignUpResult)
    ensures !r.state.loading
    // an auth failure returns early: nothing inserted, nothing else changed
    ensures auth.SignUpFailed? ==> r == SignUpResult(s.(loading := false), None, Some(auth.message))
    ensures auth.NoUserCreated? ==> r == SignUpResult(s.(loading := false), None, Some(NoAccountMessage))
    // the inserted row is the given data with `id` and `email` overridden
    ensures r.insert.Some? <==> auth.Created?
    ensures auth.Created? ==>
              && Json.Get(r.insert.value, "id") == Some(Some(auth.user.id))
              && Json.Get(r.insert.value, "email") == Some(email)
              && forall k | k != "id" && k != "email" :: Json.Get(r.insert.value, k) == Json.Get(profileData, k)
    ensures auth.Created? && insertError.Some? ==> r.state == s.(loading := false) && r.error == insertError
    // only a full success signs the user in
    ensures r.error.None? <==> auth.Created? && insertError.None?
    ensures r.error.None? ==> r.state.user == Some(auth.user)
    ensures r.error.None? && fetch.Fetched? ==> Loaded(s, r.state, fetch.profile)
    ensures r.state.user != s.user ==> r.error.None?
  {
    match auth
    case SignUpFailed(message) => SignUpResult(s.(loading := false), None, Some(message))
    case NoUserCreated => SignUpResult(s.(loading := false), None, Some(NoAccountMessage))
    case Created(u) =>
      var row := Json.Set(Json.Set(profileData, "id", Some(u.id)), "email", email);
      if insertError.Some? then SignUpResult(s.(loading := false), Some(row), insertError)
      else SignUpResult(ApplyProfileFetch(s.(user := Some(u)), fetch).(loading := false), Some(row), None)
  }

  datatype SignInReply = SignInFailed(message: string) | SignedIn(user: Option<User>)

  /** `signIn`: the final state and the returned error. The profile is fetched by email. */
  function SignIn(s: State, auth: SignInReply, fetchByEmail: ProfileFetch): (r: (State, Option<string>))
    ensures !r.0.loading
    ensures r.1.Some? <==> auth.SignInFailed?
    ensures auth.SignInFailed? ==> r == (s.(loading := false), Some(auth.message))
    ensures auth.SignedIn? && auth.user.None? ==> r.0 == s.(loading := false)
    ensures auth.SignedIn? && auth.user.Some? ==>
              r.0.user == auth.user && (fetchByEmail.Fetched? ==> Loaded(s, r.0, fetchByEmail.profile))
  {
    match auth
    case SignInFailed(message) => (s.(loading := false), Some(message))
    case SignedIn(u) =>
      if u.Some? then (ApplyProfileFetch(s.(user := u), fetchByEmail).(loading := false), None)
      else (s.(loading := false), None)
  }

  /** `signOut`: the state while the remote sign-out runs, and the state after it.
      The remote reply does not matter: both paths clear the same fields. */
  function SignOut(s: State): (r: (State, State))
    ensures r.0.loading && !r.1.loading
    ensures r.0.user.None? && r.0.profile.None? && r.0.retell.None? && !r.0.hasAgentNumber
    ensures r.1.user.None? && r.1.profile.None? && r.1.retell.None? && !r.1.hasAgentNumber
  {
    (Cleared(true), Cleared(false))
  }

  /** `updateProfile`: the state, the write made (the row id and the update), the error. */
  datatype UpdateResult = UpdateResult(state: State, write: Option<(string, Json.Object<Option<string>>)>, error: Option<string>)

  const NoUserMessage := "No user logged in"

  function UpdateProfile(s: State, data: Json.Object<Option<string>>, now: string,
                         updateError: Option<string>, fetch: ProfileFetch): (r: UpdateResult)
    ensures s.user.None? ==> r == UpdateResult(s, None, Some(NoUserMessage))
    // the signed-in user's own row is written, stamped with the time
    ensures s.user.Some? ==>
              && r.write.Some? && r.write.value.0 == s.user.value.id
              && Json.Get(r.write.value.1, "updated_at") == Some(Some(now))
              && forall k | k != "updated_at" :: Json.Get(r.write.value.1, k) == Json.Get(data, k)
    ensures s.user.Some? && updateError.Some? ==> r.state == s && r.error == updateError
    ensures s.user.Some? && updateError.None? ==> r.error.None? && r.state == ApplyProfileFetch(s, fetch)
  {
    match s.user
    case None => UpdateResult(s, None, Some(NoUserMessage))
    case Some(u) =>
      var write := (u.id, Json.Set(data, "updated_at", Some(now)));
      if updateError.Some? then UpdateResult(s, Some(write), updateError)
      else UpdateResult(ApplyProfileFetch(s, fetch), Some(write), None)
  }

  /** `refreshProfile`: a re-fetch, only when somebody is signed in. */
  function RefreshProfile(s: State, fetch: ProfileFetch): (t: State)
    ensures s.user.None? ==> t == s
    ensures s.user.Some? && fetch.Fetched? ==> Loaded(s, t, fetch.profile)
    ensures t.user == s.user && t.loading == s.loading
  {
    if s.user.Some? then ApplyProfileFetch(s, fetch) else s
  }

  // ---------------------------------------------------------------------------
  // The agent number: profile first, then the CRM, then the sentinel

  const NotAssigned := "Not assigned yet"

  /** The CRM custom field that holds a contact's agent number. */
  const AgentNumberField := "Znuo3CRbsgviZTDokZyH"

  datatype Contact = Contact(email: Option<string>, customFields: seq<(string, Option<string>)>)

  /** The CRM contact listing: it failed (a thrown fetch or parse), or the contacts. */
  datatype CrmReply = CrmFailed | Contacts(contacts: seq<Contact>)

  /** The index of the first contact with exactly that email. */
  function FirstMatch(cs: seq<Contact>, email: string): (r: Option<nat>)
    ensures r.None? <==> forall i | 0 <= i < |cs| :: cs[i].email != Some(email)
    ensures r.Some? ==> r.value < |cs| && cs[r.value].email == Some(email)
                          && forall j | 0 <= j < r.value :: cs[j].email != Some(email)
  {
    if |cs| == 0 then None
    else if cs[0].email == Some(email) then Some(0)
    else match FirstMatch(cs[1..], email)
      case None => None
      case Some(i) => Some(i + 1)
  }

  /** `contacts.find(u => u.email === email)`: the first contact with exactly that email. */
  function FindContact(cs: seq<Contact>, email: string): (r: Option<Contact>)
    ensures r.None? <==> forall i | 0 <= i < |cs| :: cs[i].email != Some(email)
    ensures r.Some? ==> exists i | 0 <= i < |cs| :: cs[i] == r.value && cs[i].email == Some(email)
                          && forall j | 0 <= j < i :: cs[j].email != Some(email)
  {
    match FirstMatch(cs, email)
    case None => None
    case Some(i) => Some(cs[i])
  }

  /** `contacts.filter(u => u.email === email)`. */
  function MatchingContacts(cs: seq<Contact>, email: string): (m: seq<Contact>)
    ensures forall i | 0 <= i < |m| :: m[i].email == Some(email)
  {
    if |cs| == 0 then []
    else if cs[0].email == Some(email) then [cs[0]] + MatchingContacts(cs[1..], email)
    else MatchingContacts(cs[1..], email)
  }

  /** `fetchContactByEmail`: the first of the filtered contacts; undefined on failure. */
  function FetchContactByEmail(crm: CrmReply, email: string): Option<Contact> {
    match crm
    case CrmFailed => None
    case Contacts(cs) =>
      var m := MatchingContacts(cs, email);
      if |m| > 0 then Some(m[0]) else None
  }

  /** The filter-then-first lookup finds the contact the resolver's `find` finds. */
  lemma {:induction false} FetchContactAgrees(cs: seq<Contact>, email: string)
    ensures FetchContactByEmail(Contacts(cs), email) == FindContact(cs, email)
  {
    if |cs| > 0 && cs[0].email != Some(email) {
      FetchContactAgrees(cs[1..], email);
    }
  }

  /** `customFields.find(f => f.id === id)?.value`. */
  function FieldValue(fields: seq<(string, Option<string>)>, id: string): (v: Option<string>)
    ensures v.Some? ==> exists i | 0 <= i < |fields| :: fields[i] == (id, v)
    // no field with the id: undefined
    ensures (forall i | 0 <= i < |fields| :: fields[i].0 != id) ==> v.None?
    // otherwise the value of the first field with the id
    ensures forall i | 0 <= i < |fields| && fields[i].0 == id && (forall j | 0 <= j < i :: fields[j].0 != id) ::
              v == fields[i].1
  {
    if |fields| == 0 then None
    else if fields[0].0 == id then fields[0].1
    else FieldValue(fields[1..], id)
  }

  /** A field whose id no earlier field has is the one `find` returns. */
  lemma {:induction false} FieldValueAt(fields: seq<(string, Option<string>)>, i: int)
    requires 0 <= i < |fields|
    requires forall j | 0 <= j < i :: fields[j].0 != fields[i].0
    ensures FieldValue(fields, fields[i].0) == fields[i].1
  {
    if i > 0 {
      FieldValueAt(fields[1..], i - 1);
    }
  }

  /** The number the CRM holds for an email, or the sentinel. */
  function ResolveAgentNumber(cs: seq<Contact>, email: string): (n: string)
    ensures n != ""
    ensures n != NotAssigned ==>
              var c := FindContact(cs, email);
              c.Some? && FieldValue(c.value.customFields, AgentNumberField) == Some(n)
    ensures FindContact(cs, email).None? ==> n == NotAssigned
    // a found contact's field, when set, is the number; otherwise the sentinel
    ensures var c := FindContact(cs, email);
            c.Some? && Present(FieldValue(c.value.customFields, AgentNumberField)) ==>
              n == FieldValue(c.value.customFields, AgentNumberField).value
    ensures var c := FindContact(cs, email);
            c.Some? && !Present(FieldValue(c.value.customFields, AgentNumberField)) ==> n == NotAssigned
  {
    var c := FindContact(cs, email);
    var v := if c.Some? then FieldValue(c.value.customFields, AgentNumberField) else None;
    if Present(v) then v.value else NotAssigned
  }

  /** The profile already holds a number: no CRM lookup is needed. */
  predicate FastPath(s: State) {
    s.profile.Some? && s.profile.value.hasAgentNumber && Present(s.profile.value.agentNumber)
  }

  /** The resolver's effect: the new state, whether the CRM was queried, and the
      convergence write `{agent_number, has_agent_number: true}` issued (None: none). */
  datatype RetellResult = RetellResult(state: State, crmQueried: bool, write: Option<string>)

  function FetchUserRetellNumber(s: State, crm: CrmReply): (r: RetellResult)
    // only the shown number and the agent flag ever change
    ensures r.state.user == s.user && r.state.profile == s.profile && r.state.loading == s.loading
    // fast path: the stored number, no lookup
    ensures FastPath(s) ==> r == RetellResult(s.(retell := s.profile.value.agentNumber, hasAgentNumber := true), false, None)
    // no profile email: nothing happens
    ensures !FastPath(s) && (s.profile.None? || !Present(s.profile.value.email)) ==> r == RetellResult(s, false, None)
    ensures r.crmQueried <==> !FastPath(s) && s.profile.Some? && Present(s.profile.value.email)
    // a failed lookup is swallowed
    ensures r.crmQueried && crm.CrmFailed? ==> r.state == s && r.write.None?
    ensures r.crmQueried && crm.Contacts? ==>
              var n := ResolveAgentNumber(crm.contacts, s.profile.value.email.value);
              && r.state.retell == Some(n)
              && r.state.hasAgentNumber == (n != NotAssigned || s.hasAgentNumber)
              // the write goes out exactly for a real number the profile does not yet claim
              && (r.write.Some? <==> n != NotAssigned && !s.profile.value.hasAgentNumber)
              && (r.write.Some? ==> r.write.value == n)
    ensures r.write.Some? ==> r.crmQueried
  {
    if FastPath(s) then
      RetellResult(s.(retell := s.profile.value.agentNumber, hasAgentNumber := true), false, None)
    else if s.profile.None? || !Present(s.profile.value.email) then
      RetellResult(s, false, None)
    else match crm
      case CrmFailed => RetellResult(s, true, None)
      case Contacts(cs) =>
        var n := ResolveAgentNumber(cs, s.profile.value.email.value);
        if n != NotAssigned then
          RetellResult(s.(retell := Some(n), hasAgentNumber := true), true,
                       if !s.profile.value.hasAgentNumber then Some(n) else None)
        else RetellResult(s.(retell := Some(n)), true, None)
  }

  /** The profile once a convergence write of `n` has landed. */
  function WithAgentNumber(p: Profile, n: string): Profile {
    p.(hasAgentNumber := true, agentNumber := Some(n))
  }

  /** Convergence: once the write lands, the next resolution takes the fast path,
      shows the same number, queries nothing and writes nothing. */
  lemma {:induction false} RetellConverges(s: State, crm: CrmReply, later: CrmReply)
    requires FetchUserRetellNumber(s, crm).write.Some?
    ensures var r := FetchUserRetellNumber(s, crm);
            var t := r.state.(profile := Some(WithAgentNumber(s.profile.value, r.write.value)));
            FetchUserRetellNumber(t, later) == RetellResult(t, false, None)
  {
  }

  /** Resolving twice against the same CRM reply changes nothing more. */
  lemma {:induction false} RetellIdempotent(s: State, crm: CrmReply)
    ensures var r := FetchUserRetellNumber(s, crm);
            FetchUserRetellNumber(r.state, crm).state == r.state
  {
  }

  /** Session transitions keep a signed-out state free of any user data. */
  lemma {:induction false} CleanAfterSession(s: State, reply: SessionReply, event: AuthEvent, u: Option<User>, f: ProfileFetch)
    requires Clean(s)
    ensures Clean(Bootstrap(s, reply, f)) && Clean(OnAuthStateChange(s, event, u, f))
  {
  }

  /** So do sign-up, sign-in and sign-out. */
  lemma {:induction false} CleanAfterAccount(s: State, email: Option<string>, data: Json.Object<Option<string>>, up: SignUpReply,
                          err: Option<string>, inReply: SignInReply, f: ProfileFetch)
    requires Clean(s)
    ensures Clean(SignUp(s, email, data, up, err, f).state) && Clean(SignIn(s, inReply, f).0)
    ensures Clean(SignOut(s).0) && Clean(SignOut(s).1)
  {
  }

  /** And so do the profile update, the refresh and the number resolver. */
  lemma {:induction false} CleanAfterProfile(s: State, data: Json.Object<Option<string>>, now: string, err: Option<string>,
                          f: ProfileFetch, crm: CrmReply)
    requires Clean(s)
    ensures Clean(UpdateProfile(s, data, now, err, f).state) && Clean(RefreshProfile(s, f))
    ensures Clean(FetchUserRetellNumber(s, crm).state)
  {
  }

  /** After a sign-out the SIGNED_OUT event that follows changes nothing, and
      signing out again gives the same states. */
  lemma {:induction false} SignOutSettles(s: State, u: Option<User>, f: ProfileFetch)
    ensures OnAuthStateChange(SignOut(s).1, SignedOut, u, f) == SignOut(s).1
    ensures SignOut(SignOut(s).1) == SignOut(s)
  {
  }
}

=== FILE: buy_number.dfy ===
/**
 * The number-purchase relay (netlify/functions/buy-number.js). A POST naming a
 * user and an email is forwarded unchanged to the provisioning workflow; its
 * answer becomes the response, and a workflow answer that reports a purchased
 * number is passed on to the agent-number callback. The workflow's reply is an
 * input; the callback is an output whose own reply is ignored.
 */
module BuyNumber {
  import opened Wrappers
  import opened Http
  import Text
  import Json

  datatype Env = Env(siteUrl: Option<string>)

  datatype Event = Event(httpMethod: Method, body: Body<Json.Object<Json.JsValue>>)

  /** The workflow's answer: `fetch` threw (with its message), or a status, its
      text (None: the text could not be read) and what `JSON.parse` made of the
      text (None: it threw). */
  datatype WorkflowReply =
    | Unreachable(message: string)
    | Answered(status: int, statusText: string, text: Option<string>, parsed: Option<Json.Object<Json.JsValue>>)

  /** The callback request: its url and its body. */
  datatype SaveCall = SaveCall(url: string, body: Json.Object<Json.JsValue>)

  datatype ResponseBody =
    | NoContent
    | Failure(error: string, details: Option<string>, suggestion: Option<string>)
    | Submitted(data: Json.Object<Json.JsValue>)

  datatype Response = Response(status: int, body: ResponseBody)

  /** The response, the body forwarded to the workflow (None: nothing sent) and the callback made. */
  datatype Outcome = Outcome(forwarded: Option<Json.Object<Json.JsValue>>, save: Option<SaveCall>, response: Response)

  const DefaultSite := "https://fieldcall.ai"
  const SavePath := "/.netlify/functions/save-agent-number"

  /** The advice attached to a failed workflow call, by its status. */
  function Suggestion(status: int): (s: string)
    ensures status == 404 ==> s == "Check if the n8n workflow is active and the webhook URL is correct"
    ensures status == 405 ==> s == "Check if the webhook HTTP method is set to POST"
    ensures status != 404 && status != 405 ==> s == "Check n8n workflow configuration"
  {
    if status == 404 then "Check if the n8n workflow is active and the webhook URL is correct"
    else if status == 405 then "Check if the webhook HTTP method is set to POST"
    else "Check n8n workflow configuration"
  }

  /** What a successful workflow answer makes of its text. */
  function WorkflowData(text: Option<string>, parsed: Option<Json.Object<Json.JsValue>>): (d: Json.Object<Json.JsValue>)
    // nothing readable, or only white space: an empty object
    ensures text.None? || Text.IsBlank(text.value) ==> d == []
    // text that is not JSON is wrapped as a message
    ensures text.Some? && !Text.IsBlank(text.value) && parsed.None? ==> d == [("message", Json.JStr(text.value))]
    ensures text.Some? && !Text.IsBlank(text.value) && parsed.Some? ==> d == parsed.value
  {
    if text.None? || Text.IsBlank(text.value) then []
    else if parsed.None? then [("message", Json.JStr(text.value))]
    else parsed.value
  }

  /** The workflow reported a purchased number. */
  predicate Purchased(d: Json.Object<Json.JsValue>) {
    Json.Truthy(Json.Get(d, "success")) && Json.Truthy(Json.Get(d, "phoneNumber"))
  }

  function Error(status: int, error: string): Response {
    Response(status, Failure(error, None, None))
  }

  /** The handler. */
  function Handle(event: Event, env: Env, reply: WorkflowReply): (o: Outcome)
    ensures event.httpMethod == Options ==> o == Outcome(None, None, Response(200, NoContent))
    ensures event.httpMethod == OtherMethod ==> o.forwarded.None? && o.response.status == 405
    ensures event.httpMethod == Post && event.body.Malformed? ==>
              o == Outcome(None, None, Error(400, "Invalid JSON in request body"))
    ensures event.httpMethod == Post && event.body.JsonNull? ==>
              o == Outcome(None, None, Response(500, Failure("Internal server error", Some(TypeError), None)))
    ensures event.httpMethod == Post && event.body.Parsed?
              && !(Json.Truthy(Json.Get(event.body.value, "user_id")) && Json.Truthy(Json.Get(event.body.value, "email"))) ==>
              o == Outcome(None, None, Error(400, "Missing required fields: user_id and email"))
    // what is sent upstream is the request body itself, and only a validated one
    ensures o.forwarded.Some? ==>
              && event.httpMethod == Post && event.body.Parsed? && o.forwarded.value == event.body.value
              && Json.Truthy(Json.Get(event.body.value, "user_id")) && Json.Truthy(Json.Get(event.body.value, "email"))
    // and a validated body is always forwarded, unchanged
    ensures event.httpMethod == Post && event.body.Parsed?
              && Json.Truthy(Json.Get(event.body.value, "user_id")) && Json.Truthy(Json.Get(event.body.value, "email")) ==>
              o.forwarded == Some(event.body.value)
    ensures o.forwarded.Some? && reply.Unreachable? ==>
              o.response == Response(500, Failure("Failed to connect to n8n webhook", Some(reply.message), None))
    ensures o.forwarded.Some? && reply.Answered? && !IsOk(reply.status) ==>
              o.response.status == 502 && o.response.body.Failure?
              && o.response.body.suggestion == Some(Suggestion(reply.status))
              && o.response.body.details == Some(if reply.text.Some? && reply.text.value != "" then reply.text.value else reply.statusText)
    // 200 exactly when the workflow answered 2xx; the body carries its data
    ensures o.response.status == 200 && event.httpMethod != Options <==>
              o.forwarded.Some? && reply.Answered? && IsOk(reply.status)
    ensures o.response.status == 200 && event.httpMethod != Options ==>
              o.response.body == Submitted(WorkflowData(reply.text, reply.parsed))
    // the callback fires only for parsed data reporting a number, with the request's user and email
    ensures o.save.Some? <==>
              o.forwarded.Some? && reply.Answered? && IsOk(reply.status) && reply.text.Some?
              && !Text.IsBlank(reply.text.value) && reply.parsed.Some? && Purchased(reply.parsed.value)
    ensures o.save.Some? ==>
              && o.save.value.url == (if Present(env.siteUrl) then env.siteUrl.value else DefaultSite) + SavePath
              && Json.Get(o.save.value.body, "user_id") == Json.Get(event.body.value, "user_id")
              && Json.Get(o.save.value.body, "email") == Json.Get(event.body.value, "email")
              && forall k | k != "user_id" && k != "email" :: Json.Get(o.save.value.body, k) == Json.Get(reply.parsed.value, k)
  {
    match MethodGate(event.httpMethod)
    case Preflight => Outcome(None, None, Response(200, NoContent))
    case NotAllowed => Outcome(None, None, Error(405, "Method not allowed"))
    case Proceed =>
      match event.body
      case Malformed => Outcome(None, None, Error(400, "Invalid JSON in request body"))
      case JsonNull => Outcome(None, None, Response(500, Failure("Internal server error", Some(TypeError), None)))
      case Parsed(req) =>
        var userId := Json.Get(req, "user_id");
        var email := Json.Get(req, "email");
        if !Json.Truthy(userId) || !Json.Truthy(email) then
          Outcome(None, None, Error(400, "Missing required fields: user_id and email"))
        else match reply
          case Unreachable(message) =>
            Outcome(Some(req), None, Response(500, Failure("Failed to connect to n8n webhook", Some(message), None)))
          case Answered(status, statusText, text, parsed) =>
            if !IsOk(status) then
              var errorText := if text.Some? then text.value else "";
              Outcome(Some(req), None, Response(502, Failure(
                "N8N webhook returned " + Text.IntToString(status) + ": " + statusText,
                Some(if errorText != "" then errorText else statusText),
                Some(Suggestion(status)))))
            else
              var data := WorkflowData(text, parsed);
              var save :=
                if text.Some? && !Text.IsBlank(text.value) && parsed.Some? && Purchased(parsed.value) then
                  Some(SaveCall((if Present(env.siteUrl) then env.siteUrl.value else DefaultSite) + SavePath,
                                Json.Set(Json.Set(parsed.value, "user_id", userId.value), "email", email.value)))
                else None;
              Outcome(Some(req), save, Response(200, Submitted(data)))
  }
}

=== FILE: checkout_session.dfy ===
/**
 * The checkout-session initiator (netlify/functions/create-stripe-session.js).
 * A POST carrying the signup form and a plan id is checked against a fixed,
 * server-side price table; a hosted-checkout session is requested whose
 * metadata holds the whole form, serialised, plus the plan id. The payment
 * provider's reply is an input of the model.
 */
module CheckoutSession {
  import opened Wrappers
  import opened Http
  import Json

  /** The server-side price table, in cents. No other plan can be bought. */
  const PlanPrices: map<string, nat> := map["starter" := 9900, "pro" := 37500]

  const DefaultOrigin := "https://fieldcall.ai"
  const SuccessPath := "/signup?session_id={CHECKOUT_SESSION_ID}"
  const CancelPath := "/signup?payment=cancelled"

  datatype Env = Env(stripeSecretKey: Option<string>)

  /** The body fields: `formData` (a flat object of strings) and `selectedPlan`. */
  datatype Request = Request(formData: Option<Json.Object<string>>, selectedPlan: Option<string>)

  datatype Event = Event(httpMethod: Method, origin: Option<string>, body: Body<Request>)

  datatype LineItem = LineItem(currency: string, productName: string, description: string, unitAmount: nat, quantity: nat)

  /** Session metadata: the serialised form and the plan id. */
  datatype Metadata = Metadata(formData: string, selectedPlan: string)

  /** The parameters handed to the provider's `checkout.sessions.create`. */
  datatype SessionParams = SessionParams(
    paymentMethodTypes: seq<string>,
    lineItems: seq<LineItem>,
    mode: string,
    successUrl: string,
    cancelUrl: string,
    customerEmail: Option<string>,
    metadata: Metadata)

  /** The provider's answer: a session, or a thrown error with its message. */
  datatype CreateReply = Created(id: string, url: string) | CreateFailed(message: string)

  datatype ResponseBody =
    | NoContent
    | Failure(error: string, details: Option<string>)
    | Session(sessionId: string, url: string)

  datatype Response = Response(status: int, body: ResponseBody)

  /** The response, and the session request made on the way (None: none made). */
  datatype Outcome = Outcome(call: Option<SessionParams>, response: Response)

  /** `event.headers.origin || 'https://fieldcall.ai'`. */
  function SiteUrl(origin: Option<string>): (r: string)
    ensures Present(origin) ==> r == origin.value
    ensures !Present(origin) ==> r == DefaultOrigin
  {
    if Present(origin) then origin.value else DefaultOrigin
  }

  /** The price of a purchasable plan; None for every other id. */
  function PriceOf(plan: string): (r: Option<nat>)
    ensures r.Some? <==> plan == "starter" || plan == "pro"
    ensures plan == "starter" ==> r == Some(9900)
    ensures plan == "pro" ==> r == Some(37500)
  {
    if plan in PlanPrices && PlanPrices[plan] != 0 then Some(PlanPrices[plan]) else None
  }

  /** The session request for a validated form and a priced plan. */
  function Params(form: Json.Object<string>, plan: string, amount: nat, site: string): SessionParams {
    var starter := plan == "starter";
    SessionParams(
      ["card"],
      [LineItem("usd",
                "FieldCall\U{2122} " + (if starter then "Starter" else "Pro") + " Plan",
                "Monthly subscription - " + (if starter then "40 calls included" else "160 calls included"),
                amount, 1)],
      "payment",
      site + SuccessPath,
      site + CancelPath,
      Json.Get(form, "email"),
      Metadata(Json.Serialise(form), plan))
  }

  function Error(status: int, error: string): Response {
    Response(status, Failure(error, None))
  }

  /** The response body as the handler writes it: empty for a preflight, otherwise
      a flat JSON object of strings (a missing `details` is dropped by `JSON.stringify`). */
  function BodyText(b: ResponseBody): (t: string)
    ensures b.NoContent? <==> t == ""
    ensures b.Failure? ==> Json.Parse(t) == Some([("error", b.error)] + if b.details.Some? then [("details", b.details.value)] else [])
    ensures b.Session? ==> Json.Parse(t) == Some([("sessionId", b.sessionId), ("url", b.url)])
  {
    match b
    case NoContent => ""
    case Failure(error, details) =>
      var o := [("error", error)] + if details.Some? then [("details", details.value)] else [];
      Json.ParseSerialise(o);
      Json.Serialise(o)
    case Session(id, url) =>
      Json.ParseSerialise([("sessionId", id), ("url", url)]);
      Json.Serialise([("sessionId", id), ("url", url)])
  }

  /** The handler. The provider reply is consulted only when a session is requested. */
  function Handle(event: Event, env: Env, reply: CreateReply): (o: Outcome)
    // the method gate comes first
    ensures event.httpMethod == Options ==> o == Outcome(None, Response(200, NoContent))
    ensures event.httpMethod == OtherMethod ==> o.call.None? && o.response.status == 405
    // then the key check, before the body is looked at
    ensures event.httpMethod == Post && !Present(env.stripeSecretKey) ==>
              o.call.None? && o.response == Error(500, "Stripe secret key not configured")
    // a body that does not parse is caught by the generic handler: 500, not 400
    ensures event.httpMethod == Post && Present(env.stripeSecretKey) && !event.body.Parsed? ==>
              o.call.None? && o.response.status == 500
    ensures event.httpMethod == Post && Present(env.stripeSecretKey) && event.body.Parsed?
              && (event.body.value.formData.None? || !Present(event.body.value.selectedPlan)) ==>
              o == Outcome(None, Error(400, "Missing form data or selected plan"))
    ensures event.httpMethod == Post && Present(env.stripeSecretKey) && event.body.Parsed?
              && event.body.value.formData.Some? && Present(event.body.value.selectedPlan)
              && event.body.value.selectedPlan.value !in PlanPrices ==>
              o == Outcome(None, Error(400, "Invalid plan selected"))
    // a session is requested only for a known plan, and charges exactly its table price once
    ensures o.call.Some? ==>
              && event.httpMethod == Post && Present(env.stripeSecretKey) && event.body.Parsed?
              && var req := event.body.value;
              && var p := o.call.value;
              && req.formData.Some? && req.selectedPlan.Some?
              && req.selectedPlan.value in PlanPrices
              && |p.lineItems| == 1
              && p.lineItems[0].unitAmount == PlanPrices[req.selectedPlan.value]
              && p.lineItems[0].quantity == 1
              && p.lineItems[0].currency == "usd"
              && p.successUrl == SiteUrl(event.origin) + SuccessPath
              && p.cancelUrl == SiteUrl(event.origin) + CancelPath
              && p.customerEmail == Json.Get(req.formData.value, "email")
              && p.metadata.selectedPlan == req.selectedPlan.value
              && Json.Parse(p.metadata.formData) == Some(req.formData.value)
    // and a session is always requested once the form and a known plan are there
    ensures event.httpMethod == Post && Present(env.stripeSecretKey) && event.body.Parsed?
              && event.body.value.formData.Some? && Present(event.body.value.selectedPlan)
              && event.body.value.selectedPlan.value in PlanPrices ==>
              o.call.Some?
    // success exactly when the session was requested and the provider created it
    ensures o.response.status == 200 && event.httpMethod != Options <==> o.call.Some? && reply.Created?
    ensures o.call.Some? && reply.Created? ==> o.response.body == Session(reply.id, reply.url)
    ensures o.call.Some? && reply.CreateFailed? ==>
              o.response == Response(500, Failure("Failed to create payment session", Some(reply.message)))
  {
    match MethodGate(event.httpMethod)
    case Preflight => Outcome(None, Response(200, NoContent))
    case NotAllowed => Outcome(None, Error(405, "Method not allowed"))
    case Proceed =>
      if !Present(env.stripeSecretKey) then Outcome(None, Error(500, "Stripe secret key not configured"))
      else match event.body
        case Malformed =>
          Outcome(None, Response(500, Failure("Failed to create payment session", Some(SyntaxError))))
        case JsonNull =>
          Outcome(None, Response(500, Failure("Failed to create payment session", Some(TypeError))))
        case Parsed(req) =>
          if req.formData.None? || !Present(req.selectedPlan) then
            Outcome(None, Error(400, "Missing form data or selected plan"))
          else
            var plan := req.selectedPlan.value;
            match PriceOf(plan)
            case None => Outcome(None, Error(400, "Invalid plan selected"))
            case Some(amount) =>
              var params := Params(req.formData.value, plan, amount, SiteUrl(event.origin));
              Json.ParseSerialise(req.formData.value);
              match reply
              case Created(id, url) => Outcome(Some(params), Response(200, Session(id, url)))
              case CreateFailed(msg) =>
                Outcome(Some(params), Response(500, Failure("Failed to create payment session", Some(msg))))
  }
}

=== FILE: create_admin_account.dfy ===
/**
 * The administrator bootstrap (netlify/functions/create-admin-account.js). Given
 * the shared secret, an email and a password it makes sure an auth user with that
 * email exists (reusing one if present) and that the profile with that email is a
 * `super_admin` linked to the auth user, updating or inserting it. The auth users
 * and the profile table are an explicit store; the id a newly created auth user
 * gets, the clock and the faults the services may report are inputs.
 */
module CreateAdminAccount {
  import opened Wrappers
  import opened Http
  import Json
  import opened ProfileStore

  datatype Env = Env(superAdminSecret: Option<string>, supabaseUrl: Option<string>, serviceRoleKey: Option<string>)

  /** The request fields the handler reads (string values only). */
  datatype Request = Request(email: Option<string>, password: Option<string>, secret: Option<string>)

  datatype Event = Event(httpMethod: Method, body: Body<Request>)

  datatype AuthUser = AuthUser(id: string, email: string)

  datatype Store = Store(auth: seq<AuthUser>, profiles: Table)

  /** Errors the services may report: user creation, the profile check (other
      than the no-single-row case), and the profile write (other than a key clash). */
  datatype Faults = Faults(createUser: Option<string>, check: Option<string>, write: Option<string>)

  const NoFaults := Faults(None, None, None)

  datatype ResponseBody =
    | NoContent
    | Failure(error: string, details: Option<string>)
    | Account(id: string, email: string, role: string, createdAt: string)

  datatype Response = Response(status: int, body: ResponseBody)

  datatype Outcome = Outcome(store: Store, response: Response)

  /** The columns of a freshly inserted administrator profile. */
  const AdminDetails: Json.Object<string> := [
    ("first_name", "Super"), ("last_name", "Admin"), ("company", "FieldCall Admin"),
    ("business_type", "other"), ("phone", "+1-555-000-0000"), ("city", "Admin"), ("state", "Admin")]

  /** `users.find(u => u.email === email)`. */
  function FindAuth(auth: seq<AuthUser>, email: string): (r: Option<AuthUser>)
    ensures r.None? <==> forall i | 0 <= i < |auth| :: auth[i].email != email
    ensures r.Some? ==> r.value in auth && r.value.email == email
  {
    if |auth| == 0 then None
    else if auth[0].email == email then Some(auth[0])
    else FindAuth(auth[1..], email)
  }

  /** The auth users with that email. */
  function AuthWithEmail(auth: seq<AuthUser>, email: string): (r: seq<AuthUser>)
    ensures |r| <= |auth|
    ensures forall u :: u in r <==> u in auth && u.email == email
  {
    if |auth| == 0 then []
    else if auth[0].email == email then [auth[0]] + AuthWithEmail(auth[1..], email)
    else AuthWithEmail(auth[1..], email)
  }

  lemma {:induction false} AuthWithEmailSnoc(auth: seq<AuthUser>, u: AuthUser, email: string)
    ensures AuthWithEmail(auth + [u], email) == AuthWithEmail(auth, email) + (if u.email == email then [u] else [])
  {
    if |auth| > 0 {
      assert (auth + [u])[1..] == auth[1..] + [u];
      AuthWithEmailSnoc(auth[1..], u, email);
    } else {
      assert auth + [u] == [u];
    }
  }

  /** An email `find` does not reach has no auth users. */
  lemma {:induction false} AuthWithEmailNone(auth: seq<AuthUser>, email: string)
    requires FindAuth(auth, email).None?
    ensures AuthWithEmail(auth, email) == []
  {
    if |auth| > 0 {
      AuthWithEmailNone(auth[1..], email);
    }
  }

  lemma {:induction false} FindAuthSnoc(auth: seq<AuthUser>, u: AuthUser, email: string)
    requires FindAuth(auth, email).None? && u.email == email
    ensures FindAuth(auth + [u], email) == Some(u)
  {
    if |auth| > 0 {
      assert (auth + [u])[1..] == auth[1..] + [u];
      FindAuthSnoc(auth[1..], u, email);
    } else {
      assert auth + [u] == [u];
    }
  }

  function Error(status: int, error: string): Response {
    Response(status, Failure(error, None))
  }

  /** The profile step, once the auth user is settled: update the one profile
      with the email, or insert a new one. */
  function UpsertProfile(t: Table, email: string, user: AuthUser, faults: Faults, now: string): (r: (Table, Response))
    ensures r.1.status == 200 || r.1.status == 500
    ensures r.1.status != 200 ==> r.0 == t
    ensures faults.check.Some? ==> r == (t, Response(500, Failure("Failed to check existing profile", faults.check)))
    ensures r.1.status == 200 ==>
              && r.1.body.Account? && r.1.body.id == user.id && r.1.body.email == user.email && r.1.body.role == SuperAdmin
              && exists i | 0 <= i < |r.0| :: r.0[i].id == user.id && r.0[i].email == email && r.0[i].role == SuperAdmin
    // exactly one profile with the email: it is updated in place
    ensures r.1.status == 200 && |WithEmail(t, email)| == 1 ==>
              var i := FirstWithEmail(t, email).value;
              r.0 == t[i := t[i].(role := SuperAdmin, id := user.id, updatedAt := now)]
    // none, or several: a new row is appended
    ensures r.1.status == 200 && |WithEmail(t, email)| != 1 ==>
              r.0 == t + [Row(user.id, email, SuperAdmin, now, now, AdminDetails)]
    // the only failures are the faults and a clash with another row's id
    ensures faults == NoFaults && |WithEmail(t, email)| == 1 ==>
              var i := FirstWithEmail(t, email).value;
              r.1.status == 200 <==> forall j | 0 <= j < |t| && j != i :: t[j].id != user.id
    ensures faults == NoFaults && |WithEmail(t, email)| != 1 ==> (r.1.status == 200 <==> !HasId(t, user.id))
  {
    if faults.check.Some? then (t, Response(500, Failure("Failed to check existing profile", faults.check)))
    else if |WithEmail(t, email)| == 1 then
      var i := FirstWithEmail(t, email).value;
      var clash := exists j | 0 <= j < |t| && j != i :: t[j].id == user.id;
      if clash || faults.write.Some? then
        (t, Response(500, Failure("Failed to update user profile", faults.write)))
      else
        var row := t[i].(role := SuperAdmin, id := user.id, updatedAt := now);
        var t' := t[i := row];
        assert t'[i] == row;
        (t', Response(200, Account(user.id, user.email, row.role, row.createdAt)))
    else if HasId(t, user.id) || faults.write.Some? then
      (t, Response(500, Failure("Failed to create user profile", faults.write)))
    else
      var row := Row(user.id, email, SuperAdmin, now, now, AdminDetails);
      assert (t + [row])[|t|] == row;
      (t + [row], Response(200, Account(user.id, user.email, row.role, row.createdAt)))
  }

  /** The handler. */
  function Handle(event: Event, env: Env, st: Store, faults: Faults, newId: string, now: string): (o: Outcome)
    ensures event.httpMethod == Options ==> o == Outcome(st, Response(200, NoContent))
    ensures event.httpMethod == OtherMethod ==> o == Outcome(st, Error(405, "Method not allowed"))
    // the checks, in order: body, secret set, secret matches, fields, configuration
    ensures event.httpMethod == Post && event.body.Malformed? ==> o == Outcome(st, Error(400, "Invalid JSON in request body"))
    // a `null` body fails when it is destructured and lands in the generic handler
    ensures event.httpMethod == Post && event.body.JsonNull? ==>
              o == Outcome(st, Response(500, Failure("Internal server error", Some(TypeError))))
    ensures event.httpMethod == Post && event.body.Parsed? && !Present(env.superAdminSecret) ==>
              o == Outcome(st, Error(500, "SUPER_ADMIN_SECRET environment variable not set"))
    ensures event.httpMethod == Post && event.body.Parsed? && Present(env.superAdminSecret)
              && event.body.value.secret != env.superAdminSecret ==>
              o == Outcome(st, Error(401, "Invalid secret key"))
    ensures event.httpMethod == Post && event.body.Parsed? && Present(env.superAdminSecret)
              && event.body.value.secret == env.superAdminSecret
              && (!Present(event.body.value.email) || !Present(event.body.value.password)) ==>
              o == Outcome(st, Error(400, "Email and password are required"))
    ensures event.httpMethod == Post && event.body.Parsed? && Present(env.superAdminSecret)
              && event.body.value.secret == env.superAdminSecret
              && Present(event.body.value.email) && Present(event.body.value.password)
              && (!Present(env.supabaseUrl) || !Present(env.serviceRoleKey)) ==>
              o == Outcome(st, Error(500, "Supabase service role key not configured"))
    // the store is touched, and success reported, only past every check
    ensures o.store != st ==> Admitted(event, env)
    ensures o.response.status == 200 && event.httpMethod != Options ==> Admitted(event, env)
  {
    match MethodGate(event.httpMethod)
    case Preflight => Outcome(st, Response(200, NoContent))
    case NotAllowed => Outcome(st, Error(405, "Method not allowed"))
    case Proceed =>
      match event.body
      case Malformed => Outcome(st, Error(400, "Invalid JSON in request body"))
      case JsonNull => Outcome(st, Response(500, Failure("Internal server error", Some(TypeError))))
      case Parsed(req) =>
        if !Present(env.superAdminSecret) then Outcome(st, Error(500, "SUPER_ADMIN_SECRET environment variable not set"))
        else if req.secret != env.superAdminSecret then Outcome(st, Error(401, "Invalid secret key"))
        else if !Present(req.email) || !Present(req.password) then Outcome(st, Error(400, "Email and password are required"))
        else if !Present(env.supabaseUrl) || !Present(env.serviceRoleKey) then
          Outcome(st, Error(500, "Supabase service role key not configured"))
        else Provision(st, req.email.value, faults, newId, now)
  }

  /** The service calls, once every check has passed: reuse or create the auth
      user, then the profile step. */
  function Provision(st: Store, email: string, faults: Faults, newId: string, now: string): (o: Outcome)
    ensures FindAuth(st.auth, email).Some? ==> o.store.auth == st.auth
    ensures o.store.auth != st.auth ==>
              o.store.auth == st.auth + [AuthUser(newId, email)] && FindAuth(st.auth, email).None? && faults.createUser.None?
    // no auth user yet: one is created, unless creation fails, which stops the call
    ensures FindAuth(st.auth, email).None? && faults.createUser.None? ==>
              o.store.auth == st.auth + [AuthUser(newId, email)]
    ensures FindAuth(st.auth, email).None? && faults.createUser.Some? ==>
              o == Outcome(st, Response(500, Failure("Failed to create auth user", faults.createUser)))
    // without faults the profile step fails only on a clash with another row's id
    ensures var uid := if FindAuth(st.auth, email).Some? then FindAuth(st.auth, email).value.id else newId;
            faults == NoFaults && |WithEmail(st.profiles, email)| != 1 && !HasId(st.profiles, uid) ==>
              o.response.status == 200
    ensures var uid := if FindAuth(st.auth, email).Some? then FindAuth(st.auth, email).value.id else newId;
            faults == NoFaults && |WithEmail(st.profiles, email)| == 1
            && (forall j | 0 <= j < |st.profiles| && j != FirstWithEmail(st.profiles, email).value :: st.profiles[j].id != uid) ==>
              o.response.status == 200
    ensures o.response.status == 200 ==>
              && var user := FindAuth(o.store.auth, email);
              && user.Some?
              && o.response.body.Account? && o.response.body.id == user.value.id && o.response.body.role == SuperAdmin
              && exists i | 0 <= i < |o.store.profiles| ::
                   o.store.profiles[i].id == user.value.id && o.store.profiles[i].email == email
                   && o.store.profiles[i].role == SuperAdmin
  {
    match FindAuth(st.auth, email)
    case Some(user) =>
      var (t, resp) := UpsertProfile(st.profiles, email, user, faults, now);
      Outcome(Store(st.auth, t), resp)
    case None =>
      if faults.createUser.Some? then
        Outcome(st, Response(500, Failure("Failed to create auth user", faults.createUser)))
      else
        var user := AuthUser(newId, email);
        FindAuthSnoc(st.auth, user, email);
        var (t, resp) := UpsertProfile(st.profiles, email, user, faults, now);
        Outcome(Store(st.auth + [user], t), resp)
  }

  /** The call never gives an email a second auth user. */
  lemma {:induction false} AuthStaysUnique(event: Event, env: Env, st: Store, faults: Faults, newId: string, now: string)
    requires forall e :: |AuthWithEmail(st.auth, e)| <= 1
    ensures forall e :: |AuthWithEmail(Handle(event, env, st, faults, newId, now).store.auth, e)| <= 1
  {
    var o := Handle(event, env, st, faults, newId, now);
    if o.store.auth != st.auth {
      var email := event.body.value.email.value;
      AdmittedHandle(event, env, st, faults, newId, now);
      AuthWithEmailNone(st.auth, email);
      forall e ensures |AuthWithEmail(o.store.auth, e)| <= 1 {
        AuthWithEmailSnoc(st.auth, AuthUser(newId, email), e);
      }
    }
  }

  /** The profile table's primary key survives the call. */
  lemma {:induction false} KeepsUniqueIds(event: Event, env: Env, st: Store, faults: Faults, newId: string, now: string)
    requires UniqueIds(st.profiles)
    ensures UniqueIds(Handle(event, env, st, faults, newId, now).store.profiles)
  {
    if Admitted(event, env) {
      var email := event.body.value.email.value;
      AdmittedHandle(event, env, st, faults, newId, now);
      var user := if FindAuth(st.auth, email).Some? then FindAuth(st.auth, email).value else AuthUser(newId, email);
      UpsertKeepsIds(st.profiles, email, user, faults, now);
    }
  }

  lemma {:induction false} UpsertKeepsIds(t: Table, email: string, user: AuthUser, faults: Faults, now: string)
    requires UniqueIds(t)
    ensures UniqueIds(UpsertProfile(t, email, user, faults, now).0)
  {
    var r := UpsertProfile(t, email, user, faults, now);
    if r.1.status == 200 {
      if |WithEmail(t, email)| == 1 {
        var i := FirstWithEmail(t, email).value;
        assert forall j | 0 <= j < |t| && j != i :: t[j].id != user.id;
      } else {
        assert !HasId(t, user.id);
      }
    }
  }

  /** Every check before the service calls passes. */
  predicate Admitted(event: Event, env: Env) {
    && event.httpMethod == Post && event.body.Parsed? && Present(env.superAdminSecret)
    && event.body.value.secret == env.superAdminSecret
    && Present(event.body.value.email) && Present(event.body.value.password)
    && Present(env.supabaseUrl) && Present(env.serviceRoleKey)
  }

  /** The email has an auth user, and exactly one profile, which is a super_admin
      linked to that auth user. */
  predicate Settled(st: Store, email: string) {
    && FindAuth(st.auth, email).Some?
    && |WithEmail(st.profiles, email)| == 1
    && var i := FirstWithEmail(st.profiles, email).value;
       st.profiles[i].id == FindAuth(st.auth, email).value.id && st.profiles[i].role == SuperAdmin
  }

  /** A successful call on an email with at most one profile settles it. */
  lemma {:induction false} Settles(event: Event, env: Env, st: Store, faults: Faults, newId: string, now: string)
    requires Admitted(event, env)
    requires |WithEmail(st.profiles, event.body.value.email.value)| <= 1
    requires Handle(event, env, st, faults, newId, now).response.status == 200
    ensures Settled(Handle(event, env, st, faults, newId, now).store, event.body.value.email.value)
  {
    var email := event.body.value.email.value;
    AdmittedHandle(event, env, st, faults, newId, now);
    var user := if FindAuth(st.auth, email).Some? then FindAuth(st.auth, email).value else AuthUser(newId, email);
    if FindAuth(st.auth, email).None? {
      FindAuthSnoc(st.auth, user, email);
    }
    UpsertSettles(st.profiles, email, user, faults, now);
  }

  /** A successful profile step leaves one profile with the email, a super_admin with the user's id. */
  lemma {:induction false} UpsertSettles(t: Table, email: string, user: AuthUser, faults: Faults, now: string)
    requires |WithEmail(t, email)| <= 1
    requires UpsertProfile(t, email, user, faults, now).1.status == 200
    ensures var r := UpsertProfile(t, email, user, faults, now);
            && |WithEmail(r.0, email)| == 1
            && r.0[FirstWithEmail(r.0, email).value].id == user.id
            && r.0[FirstWithEmail(r.0, email).value].role == SuperAdmin
  {
    if |WithEmail(t, email)| == 1 {
      var i := FirstWithEmail(t, email).value;
      var row := t[i].(role := SuperAdmin, id := user.id, updatedAt := now);
      WithEmailUpdate(t, i, row, email);
    } else {
      var row := Row(user.id, email, SuperAdmin, now, now, AdminDetails);
      WithEmailSnoc(t, row, email);
    }
  }

  /** Past every check, the call is the service calls for the request's email. */
  lemma {:induction false} AdmittedHandle(event: Event, env: Env, st: Store, faults: Faults, newId: string, now: string)
    requires Admitted(event, env)
    ensures Handle(event, env, st, faults, newId, now) == Provision(st, event.body.value.email.value, faults, newId, now)
  {
  }

  /** The profile step on a settled profile rewrites it in place and keeps it settled. */
  lemma {:induction false} UpsertSettled(t: Table, email: string, user: AuthUser, now: string)
    requires UniqueIds(t) && |WithEmail(t, email)| == 1
    requires t[FirstWithEmail(t, email).value].id == user.id
    ensures var r := UpsertProfile(t, email, user, NoFaults, now);
            && r.1.status == 200 && r.1.body.Account? && r.1.body.id == user.id
            && |r.0| == |t| && |WithEmail(r.0, email)| == 1
            && r.0[FirstWithEmail(r.0, email).value].id == user.id
            && r.0[FirstWithEmail(r.0, email).value].role == SuperAdmin
  {
    var i := FirstWithEmail(t, email).value;
    assert forall j | 0 <= j < |t| && j != i :: t[j].id != user.id;
    var row := t[i].(role := SuperAdmin, id := user.id, updatedAt := now);
    WithEmailUpdate(t, i, row, email);
  }

  /** Calling again on a settled email succeeds without creating anything: the
      auth users and the number of profiles stay, and the email stays settled. */
  lemma {:induction false} SettledStays(event: Event, env: Env, st: Store, newId: string, now: string)
    requires Admitted(event, env) && UniqueIds(st.profiles)
    requires Settled(st, event.body.value.email.value)
    ensures var o := Handle(event, env, st, NoFaults, newId, now);
            && o.response.status == 200
            && o.response.body.id == FindAuth(st.auth, event.body.value.email.value).value.id
            && o.store.auth == st.auth
            && |o.store.profiles| == |st.profiles|
            && Settled(o.store, event.body.value.email.value)
  {
    var email := event.body.value.email.value;
    AdmittedHandle(event, env, st, NoFaults, newId, now);
    UpsertSettled(st.profiles, email, FindAuth(st.auth, email).value, now);
  }
}

=== FILE: dashboard.dfy ===
/**
 * The pure helpers of the member dashboard (src/components/Dashboard.tsx): the
 * display format of the agent's phone number, the guard on copying it, and the
 * plan and business-type lookups.
 */
module Dashboard {
  import opened Wrappers
  import Text
  import CheckoutSession
  import AuthContext

  /** The ten-digit display "(AAA) BBB-CCCC" of a digit string. */
  function Local(d: string): string
    requires |d| == 10
  {
    "(" + d[..3] + ") " + d[3..6] + "-" + d[6..]
  }

  /** The display "+1 (AAA) BBB-CCCC" of an eleven-digit string with country code 1. */
  function WithCountryCode(d: string): string
    requires |d| == 11
  {
    "+1 (" + d[1..4] + ") " + d[4..7] + "-" + d[7..]
  }

  /** `formatPhoneNumber`. */
  function FormatPhoneNumber(phone: string): (r: string)
    // the empty string and the sentinel are shown as they are
    ensures phone == "" || phone == AuthContext.NotAssigned ==> r == phone
    // ten digits, whatever surrounds them: the local shape
    ensures phone != "" && phone != AuthContext.NotAssigned && |Text.Digits(phone)| == 10 ==>
              |r| == 14 && r[0] == '(' && r[4] == ')' && r[5] == ' ' && r[9] == '-'
    // eleven digits led by a 1: the international shape
    ensures phone != "" && phone != AuthContext.NotAssigned && |Text.Digits(phone)| == 11 && Text.Digits(phone)[0] == '1' ==>
              |r| == 17 && r[..4] == "+1 (" && r[7] == ')' && r[8] == ' ' && r[12] == '-'
    // any other digit count: the original
    ensures |Text.Digits(phone)| != 10 && !(|Text.Digits(phone)| == 11 && Text.Digits(phone)[0] == '1') ==> r == phone
  {
    if phone == "" || phone == AuthContext.NotAssigned then phone
    else
      var d := Text.Digits(phone);
      if |d| == 10 then Local(d)
      else if |d| == 11 && d[0] == '1' then WithCountryCode(d)
      else phone
  }

  lemma {:induction false} DigitsOfSlices(d: string, i: nat, j: nat)
    requires i <= j <= |d|
    requires forall k :: 0 <= k < |d| ==> Text.IsDigit(d[k])
    ensures Text.Digits(d[i..j]) == d[i..j]
  {
    Text.DigitsOfDigits(d[i..j]);
  }

  lemma {:induction false} DigitsOfSeparators()
    ensures Text.Digits("(") == "" && Text.Digits(") ") == "" && Text.Digits("-") == "" && Text.Digits("+1 (") == "1"
  {
    Text.DigitsOfNonDigits("(");
    Text.DigitsOfNonDigits(") ");
    Text.DigitsOfNonDigits("-");
    Text.DigitsAppend("+", "1 (");
    Text.DigitsAppend("1", " (");
    Text.DigitsOfNonDigits("+");
    Text.DigitsOfNonDigits(" (");
    assert "+1 (" == "+" + "1 (";
    assert "1 (" == "1" + " (";
  }

  /** Digits of a group framed by non-digit text are the group's own. */
  lemma {:induction false} DigitsAround(pre: string, g: string, post: string, dp: string)
    requires Text.Digits(pre) == dp && Text.Digits(post) == ""
    requires forall k :: 0 <= k < |g| ==> Text.IsDigit(g[k])
    ensures Text.Digits(pre + g + post) == dp + g
  {
    Text.DigitsOfDigits(g);
    Text.DigitsAppend(pre, g);
    Text.DigitsAppend(pre + g, post);
  }

  /** The local shape shows exactly the ten digits it was built from. */
  lemma {:induction false} LocalDigits(d: string)
    requires |d| == 10 && forall k :: 0 <= k < |d| ==> Text.IsDigit(d[k])
    ensures Text.Digits(Local(d)) == d
  {
    DigitsOfSeparators();
    var p1 := "(" + d[..3] + ") ";
    DigitsAround("(", d[..3], ") ", "");
    var p2 := p1 + d[3..6] + "-";
    DigitsAround(p1, d[3..6], "-", d[..3]);
    Text.DigitsOfDigits(d[6..]);
    Text.DigitsAppend(p2, d[6..]);
    assert Local(d) == p2 + d[6..];
    assert d[..3] + d[3..6] + d[6..] == d;
  }

  /** The international shape shows exactly the eleven digits it was built from. */
  lemma {:induction false} WithCountryCodeDigits(d: string)
    requires |d| == 11 && d[0] == '1' && forall k :: 0 <= k < |d| ==> Text.IsDigit(d[k])
    ensures Text.Digits(WithCountryCode(d)) == d
  {
    DigitsOfSeparators();
    var p1 := "+1 (" + d[1..4] + ") ";
    DigitsAround("+1 (", d[1..4], ") ", "1");
    var p2 := p1 + d[4..7] + "-";
    DigitsAround(p1, d[4..7], "-", "1" + d[1..4]);
    Text.DigitsOfDigits(d[7..]);
    Text.DigitsAppend(p2, d[7..]);
    assert WithCountryCode(d) == p2 + d[7..];
    assert "1" + d[1..4] + d[4..7] + d[7..] == d;
  }

  /** Formatting only adds punctuation: the digits shown are the digits given. */
  lemma {:induction false} FormatKeepsDigits(phone: string)
    ensures Text.Digits(FormatPhoneNumber(phone)) == Text.Digits(phone)
  {
    var d := Text.Digits(phone);
    if phone != "" && phone != AuthContext.NotAssigned {
      if |d| == 10 {
        LocalDigits(d);
      } else if |d| == 11 && d[0] == '1' {
        WithCountryCodeDigits(d);
      }
    }
  }

  /** Formatting a formatted number changes nothing. */
  lemma {:induction false} FormatIdempotent(phone: string)
    ensures FormatPhoneNumber(FormatPhoneNumber(phone)) == FormatPhoneNumber(phone)
  {
    var r := FormatPhoneNumber(phone);
    FormatKeepsDigits(phone);
    if r != phone {
      assert r[0] == '(' || r[0] == '+';
      assert r != AuthContext.NotAssigned;
    }
  }

  /** `handleCopyNumber`: the text written to the clipboard, if any. */
  function CopyNumber(retell: string): (r: Option<string>)
    ensures r.Some? <==> retell != "" && retell != AuthContext.NotAssigned
    ensures r.Some? ==> r.value == retell
  {
    if retell != "" && retell != AuthContext.NotAssigned then Some(retell) else None
  }

  datatype PlanInfo = PlanInfo(name: string, price: string, calls: string)

  const Plans: map<string, PlanInfo> := map[
    "starter" := PlanInfo("Starter", "$99/month", "40 calls included"),
    "growth" := PlanInfo("Growth", "$189/month", "80 calls included"),
    "pro" := PlanInfo("Pro", "$375/month", "160 calls included")]

  const NoPlan := PlanInfo("Not selected", "N/A", "N/A")

  /** `getPlanDetails`: the three known plans, and a placeholder for any other id. */
  function PlanDetails(planId: string): (r: PlanInfo)
    ensures planId in Plans ==> r == Plans[planId]
    ensures planId !in Plans ==> r == NoPlan
    ensures r.price == "N/A" <==> planId != "starter" && planId != "growth" && planId != "pro"
  {
    if planId in Plans then Plans[planId] else NoPlan
  }

  /** The monthly price a plan is shown at agrees with what checkout charges for
      it, and its call allowance with the checkout line item's description. */
  lemma {:induction false} PlanDetailsAgreeWithCheckout(plan: string, form: seq<(string, string)>, site: string)
    requires plan in CheckoutSession.PlanPrices
    ensures PlanDetails(plan).price == "$" + Text.NatToString(CheckoutSession.PlanPrices[plan] / 100) + "/month"
    ensures CheckoutSession.Params(form, plan, CheckoutSession.PlanPrices[plan], site).lineItems[0].description
              == "Monthly subscription - " + PlanDetails(plan).calls
  {
    if plan == "starter" {
      assert Text.NatToString(99) == "99" by {
        assert Text.NatToString(9) == "9";
      }
    } else {
      assert Text.NatToString(375) == "375" by {
        assert Text.NatToString(37) == "37" by {
          assert Text.NatToString(3) == "3";
        }
      }
    }
  }

  const BusinessTypes: map<string, string> := map[
    "plumbing" := "Plumbing", "electrical" := "Electrical", "hvac" := "HVAC",
    "roofing" := "Roofing", "general-contractor" := "General Contractor",
    "landscaping" := "Landscaping", "restoration" := "Restoration",
    "remodeling" := "Remodeling", "other" := "Other"]

  /** `getBusinessTypeLabel`: the nine known keys get their label; any other
      value (the empty one included) is shown as it is. */
  function BusinessTypeLabel(t: string): (r: string)
    ensures t in BusinessTypes ==> r == BusinessTypes[t]
    ensures t !in BusinessTypes ==> r == t
  {
    if t in BusinessTypes then BusinessTypes[t] else t
  }

  /** No label is itself a key, so labelling a label changes nothing, and two
      known keys never share a label. */
  lemma {:induction false} BusinessTypeLabels(t: string, u: string)
    ensures BusinessTypeLabel(BusinessTypeLabel(t)) == BusinessTypeLabel(t)
    ensures t in BusinessTypes && u in BusinessTypes && t != u ==> BusinessTypeLabel(t) != BusinessTypeLabel(u)
  {
  }
}

=== FILE: flows.dfy ===
/**
 * Properties of the pieces working together: the signup form, the checkout
 * handler, the payment provider (which keeps a session's metadata as given) and
 * the payment verifier; and the purchase relay feeding the agent-number callback.
 */
module Flows {
  import opened Wrappers
  import opened Http
  import Json
  import Text
  import CheckoutSession
  import PaymentVerifier
  import SignupForm
  import BuyNumber
  import SaveAgentNumber
  import AuthContext

  /** The session the provider hands back for one it created from `p`: the
      metadata and customer email as given, with the payment status reached. */
  function StoredSession(p: CheckoutSession.SessionParams, paymentStatus: string, amountTotal: Option<int>): PaymentVerifier.Session {
    PaymentVerifier.Session(paymentStatus, p.customerEmail, amountTotal,
      Some(PaymentVerifier.StoredMetadata(Some(p.metadata.formData), Some(p.metadata.selectedPlan))))
  }

  /** A valid form's checkout request is accepted and stores the snapshot and plan. */
  lemma {:induction false} CheckoutAccepts(f: SignupForm.Form, origin: Option<string>, key: string, id: string, url: string)
    requires SignupForm.SubmitError(f).None? && f.selectedPlan in CheckoutSession.PlanPrices
    requires key != ""
    ensures var c := CheckoutSession.Handle(CheckoutSession.Event(Post, origin, Parsed(SignupForm.SubmitRequest(f))),
                                            CheckoutSession.Env(Some(key)), CheckoutSession.Created(id, url));
            && c.call.Some? && c.response == CheckoutSession.Response(200, CheckoutSession.Session(id, url))
            && Json.Parse(c.call.value.metadata.formData) == Some(SignupForm.Snapshot(f))
            && c.call.value.metadata.selectedPlan == f.selectedPlan
  {
    var req := SignupForm.SubmitRequest(f);
    assert req.formData == Some(SignupForm.Snapshot(f)) && req.selectedPlan == Some(f.selectedPlan);
    assert CheckoutSession.PriceOf(f.selectedPlan).Some?;
  }

  /** The verifier hands a paid session's stored snapshot and plan back. */
  lemma {:induction false} VerifierRecovers(p: CheckoutSession.SessionParams, form: Json.Object<string>, key: string, id: string,
                         paymentStatus: string, amountTotal: Option<int>)
    requires Json.Parse(p.metadata.formData) == Some(form) && key != "" && id != ""
    ensures var v := PaymentVerifier.Handle(SignupForm.VerifyEvent(id), PaymentVerifier.Env(Some(key)),
                                            PaymentVerifier.Retrieved(StoredSession(p, paymentStatus, amountTotal)));
            && v.retrieved == Some(id) && v.response.status == 200 && v.response.body.Verified?
            && (v.response.body.result.paid <==> paymentStatus == PaymentVerifier.PaidStatus)
            && (v.response.body.result.paid ==>
                  v.response.body.result.formData == Some(form)
                  && v.response.body.result.selectedPlan == Some(p.metadata.selectedPlan))
  {
  }

  /** The checkout request of a valid form names a purchasable plan's session,
      returning to the verifier with its id; once paid, the verified snapshot is
      the form as submitted, and the account is created with the form's email,
      password and profile. Unpaid, no account is created. */
  lemma {:induction false} CheckoutRoundTrip(f: SignupForm.Form, origin: Option<string>, key: string, id: string, url: string,
                          paymentStatus: string, amountTotal: Option<int>, signUpError: Option<string>)
    requires SignupForm.SubmitError(f).None? && f.selectedPlan in CheckoutSession.PlanPrices
    requires key != "" && id != ""
    ensures
      var c := CheckoutSession.Handle(CheckoutSession.Event(Post, origin, Parsed(SignupForm.SubmitRequest(f))),
                                      CheckoutSession.Env(Some(key)), CheckoutSession.Created(id, url));
      && c.call.Some?
      && SignupForm.DispatchUrl(Some(id), None) == SignupForm.VerifyReturn(id)
      && var v := PaymentVerifier.Handle(SignupForm.VerifyEvent(id), PaymentVerifier.Env(Some(key)),
                                         PaymentVerifier.Retrieved(StoredSession(c.call.value, paymentStatus, amountTotal)));
      && var r := SignupForm.PaymentReturn(v.response, signUpError);
      && (r.account.Some? <==> paymentStatus == PaymentVerifier.PaidStatus)
      && (r.account.Some? ==>
            r.account.value.signUp == SignupForm.SignUpCall(Some(f.email), Some(f.password),
                                                            SignupForm.ProfilePayload(SignupForm.Snapshot(f), Some(f.selectedPlan))))
      && (r.account.None? ==> r.status == SignupForm.Failed(SignupForm.NotCompletedMessage))
  {
    var c := CheckoutSession.Handle(CheckoutSession.Event(Post, origin, Parsed(SignupForm.SubmitRequest(f))),
                                    CheckoutSession.Env(Some(key)), CheckoutSession.Created(id, url));
    CheckoutAccepts(f, origin, key, id, url);
    var p := c.call.value;
    VerifierRecovers(p, SignupForm.Snapshot(f), key, id, paymentStatus, amountTotal);
    SignupForm.SnapshotEmail(f);
    SignupForm.SnapshotPassword(f);
  }

  /** The form follows a created session to the url the handler returned. */
  lemma {:induction false} CreatedSessionRedirects(event: CheckoutSession.Event, env: CheckoutSession.Env, id: string, url: string)
    requires url != ""
    requires CheckoutSession.Handle(event, env, CheckoutSession.Created(id, url)).call.Some?
    ensures var o := CheckoutSession.Handle(event, env, CheckoutSession.Created(id, url));
            SignupForm.CheckoutRedirect(SignupForm.Replied(o.response.status, CheckoutSession.BodyText(o.response.body)))
              == SignupForm.Redirect(url)
  {
    var o := CheckoutSession.Handle(event, env, CheckoutSession.Created(id, url));
    assert o.response == CheckoutSession.Response(200, CheckoutSession.Session(id, url));
    SessionRedirects(id, url);
  }

  /** The form follows a 200 answer carrying a session to its url. */
  lemma {:induction false} SessionRedirects(id: string, url: string)
    requires url != ""
    ensures SignupForm.CheckoutRedirect(SignupForm.Replied(200, CheckoutSession.BodyText(CheckoutSession.Session(id, url))))
              == SignupForm.Redirect(url)
  {
    var text := CheckoutSession.BodyText(CheckoutSession.Session(id, url));
    assert text[0] == '{';
    assert !Text.IsWhiteSpace(text[0]);
  }

  /** A failure the handler reports is shown to the customer with its own message. */
  lemma {:induction false} FailureShown(status: int, error: string, details: Option<string>)
    requires !IsOk(status) && error != ""
    ensures SignupForm.CheckoutRedirect(SignupForm.Replied(status, CheckoutSession.BodyText(CheckoutSession.Failure(error, details))))
              == SignupForm.PaymentFailed(error)
  {
    var text := CheckoutSession.BodyText(CheckoutSession.Failure(error, details));
    assert text[0] == '{';
    assert !Text.IsWhiteSpace(text[0]);
    var o := [("error", error)] + if details.Some? then [("details", details.value)] else [];
    Json.GetAt(o, 0, "error");
  }

  /** A purchase the workflow reports reaches the callback as an update of the
      requesting user's row to the number the workflow reported, cleaned; it is
      dropped only when one of the two cleans to nothing. */
  lemma {:induction false} PurchaseIsSaved(event: BuyNumber.Event, env: BuyNumber.Env, reply: BuyNumber.WorkflowReply,
                        senv: SaveAgentNumber.Env, update: SaveAgentNumber.UpdateReply, now: string)
    requires BuyNumber.Handle(event, env, reply).save.Some?
    requires Present(senv.supabaseUrl) && Present(senv.supabaseAnonKey)
    ensures
      var call := BuyNumber.Handle(event, env, reply).save.value;
      var s := SaveAgentNumber.Handle(SaveAgentNumber.Event(Post, Parsed(call.body)), senv, SaveAgentNumber.Found, update, now);
      var userId := SaveAgentNumber.Clean(Json.Get(event.body.value, "user_id"));
      var phone := SaveAgentNumber.Clean(Json.Get(reply.parsed.value, "phoneNumber"));
      && (s.update.Some? <==> userId != "" && phone != "")
      && (s.update.Some? ==> s.update.value == SaveAgentNumber.Update(userId, phone, true, now))
  {
    var body := BuyNumber.Handle(event, env, reply).save.value.body;
    assert Json.Get(body, "user_id") == Json.Get(event.body.value, "user_id");
    assert Json.Get(body, "phoneNumber") == Json.Get(reply.parsed.value, "phoneNumber");
    SaveAgentNumber.UpdateFor(body, senv, update, now);
  }

  /** Read back by id, the way the auth context reads a contact's custom fields,
      the posted lead gives each custom field's source value. */
  lemma {:induction false} LeadReadsBack(form: Json.Object<string>, plan: Option<string>)
    ensures var cf := SignupForm.LeadFor(form, plan).customFields;
            forall i | 0 <= i < |SignupForm.LeadCustomFields| ::
              AuthContext.FieldValue(cf, SignupForm.LeadCustomFields[i].0)
                == SignupForm.SourceValue(form, plan, SignupForm.LeadCustomFields[i].1)
  {
    SignupForm.LeadIdsDistinct();
    CustomValuesReadBack(form, plan, SignupForm.LeadCustomFields);
  }

  /** Custom fields built from sources with distinct ids read back by id. */
  lemma {:induction false} CustomValuesReadBack(form: Json.Object<string>, plan: Option<string>, specs: seq<(string, SignupForm.LeadSource)>)
    requires forall i, j | 0 <= i < j < |specs| :: specs[i].0 != specs[j].0
    ensures var cf := SignupForm.CustomValues(form, plan, specs);
            forall i | 0 <= i < |specs| :: AuthContext.FieldValue(cf, specs[i].0) == SignupForm.SourceValue(form, plan, specs[i].1)
  {
    var cf := SignupForm.CustomValues(form, plan, specs);
    forall i | 0 <= i < |specs|
      ensures AuthContext.FieldValue(cf, specs[i].0) == SignupForm.SourceValue(form, plan, specs[i].1)
    {
      assert forall j | 0 <= j < i :: cf[j].0 != cf[i].0;
      AuthContext.FieldValueAt(cf, i);
    }
  }

  /** A freshly posted lead carries no agent number. */
  lemma {:induction false} LeadHasNoAgentNumber(form: Json.Object<string>, plan: Option<string>)
    ensures AuthContext.FieldValue(SignupForm.LeadFor(form, plan).customFields, AuthContext.AgentNumberField).None?
  {
    var cf := SignupForm.LeadFor(form, plan).customFields;
    LeadIdsNotAgent();
    assert forall i | 0 <= i < |cf| :: cf[i].0 != AuthContext.AgentNumberField by {
      forall i | 0 <= i < |cf| ensures cf[i].0 != AuthContext.AgentNumberField {
        assert cf[i].0 == SignupForm.LeadCustomFields[i].0;
      }
    }
  }

  lemma {:induction false} LeadIdsNotAgent()
    ensures forall i | 0 <= i < |SignupForm.LeadCustomFields| :: SignupForm.LeadCustomFields[i].0 != AuthContext.AgentNumberField
  {
  }
}

=== FILE: http.dfy ===
/**
 * What every serverless handler shares: the HTTP method gate at its head,
 * the three ways `JSON.parse(event.body)` can come out, and the truthiness of
 * an environment variable or a request field.
 */
module Http {
  import opened Wrappers

  datatype Method = Options | Post | OtherMethod

  /** `JSON.parse(event.body)`: a SyntaxError, the literal `null` (whose fields
      cannot be read), or a value whose fields are read as `T`. A number, string
      or boolean body reads as a `T` whose fields are all missing. */
  datatype Body<T> = Malformed | JsonNull | Parsed(value: T)

  /** Stand-ins for the messages of the exceptions the JavaScript engine throws
      (their exact wording is engine-specific and not modelled). */
  const SyntaxError := "SyntaxError"
  const TypeError := "TypeError"

  /** JavaScript truthiness of an optional string: neither missing nor empty. */
  predicate Present(v: Option<string>) {
    v.Some? && v.value != ""
  }

  /** `response.ok`: a status in the 2xx range. */
  predicate IsOk(status: int) {
    200 <= status <= 299
  }

  /** The outcome of the method gate every handler opens with: a preflight
      answered 200, any other non-POST answered 405, or a POST that goes on. */
  datatype Gate = Preflight | NotAllowed | Proceed

  function MethodGate(m: Method): (g: Gate)
    ensures g.Proceed? <==> m == Post
    ensures g.Preflight? <==> m == Options
  {
    match m
    case Options => Preflight
    case Post => Proceed
    case OtherMethod => NotAllowed
  }
}

=== FILE: json.dfy ===
/**
 * JSON as the handlers use it. A JSON object is kept as its ordered list of
 * members (JavaScript preserves insertion order); member lookup follows
 * `JSON.parse`, where a later duplicate key wins. The signup snapshot is a flat
 * object of strings, and `Serialise` / `Parse` are `JSON.stringify` /
 * `JSON.parse` restricted to such objects.
 */
module Json {
  import opened Wrappers
  import Text

  type Object<V> = seq<(string, V)>

  /** The scalar JSON values a handler inspects (`null`, booleans, integers, strings). */
  datatype JsValue = JNull | JBool(b: bool) | JNum(n: int) | JStr(s: string)

  /** JavaScript truthiness of a possibly missing value. */
  predicate Truthy(v: Option<JsValue>) {
    match v
    case None => false
    case Some(JNull) => false
    case Some(JBool(b)) => b
    case Some(JNum(n)) => n != 0
    case Some(JStr(s)) => s != ""
  }

  /** `v?.toString()`: None for `undefined` and `null`. */
  function ToJsString(v: Option<JsValue>): (r: Option<string>)
    ensures r.None? <==> v.None? || v.value.JNull?
    ensures v.Some? && v.value.JStr? ==> r == Some(v.value.s)
  {
    match v
    case None => None
    case Some(JNull) => None
    case Some(JBool(b)) => Some(if b then "true" else "false")
    case Some(JNum(n)) => Some(Text.IntToString(n))
    case Some(JStr(s)) => Some(s)
  }

  predicate HasKey<V>(o: Object<V>, k: string) {
    exists i | 0 <= i < |o| :: o[i].0 == k
  }

  /** Member `i` is the last one named `k`. */
  predicate IsLastWith<V>(o: Object<V>, k: string, i: int) {
    0 <= i < |o| && o[i].0 == k && forall j | i < j < |o| :: o[j].0 != k
  }

  /** `o[k]` after `JSON.parse`: the value of the last member named `k`. */
  function Get<V>(o: Object<V>, k: string): (r: Option<V>)
    ensures r.None? <==> !HasKey(o, k)
    ensures r.Some? ==> exists i | 0 <= i < |o| :: IsLastWith(o, k, i) && o[i].1 == r.value
    decreases |o|
  {
    if |o| == 0 then None
    else if o[|o| - 1].0 == k then
      assert IsLastWith(o, k, |o| - 1);
      Some(o[|o| - 1].1)
    else
      var p := o[..|o| - 1];
      var r := Get(p, k);
      assert HasKey(p, k) ==> HasKey(o, k);
      assert HasKey(o, k) ==> HasKey(p, k) by {
        if HasKey(o, k) {
          var i :| 0 <= i < |o| && o[i].0 == k;
          assert i < |o| - 1 && p[i] == o[i];
        }
      }
      assert r.Some? ==> exists i | 0 <= i < |o| :: IsLastWith(o, k, i) && o[i].1 == r.value by {
        if r.Some? {
          var i :| 0 <= i < |p| && IsLastWith(p, k, i) && p[i].1 == r.value;
          assert IsLastWith(o, k, i);
        }
      }
      r
  }

  /** Looking past a trailing member named differently. */
  lemma {:induction false} GetSnoc<V>(a: Object<V>, k: string, v: V, key: string)
    ensures Get(a + [(k, v)], key) == if k == key then Some(v) else Get(a, key)
  {
    assert (a + [(k, v)])[..|a|] == a;
  }

  /** The object without its members named `k` (used by `Set`). */
  function Remove<V>(o: Object<V>, k: string): (r: Object<V>)
    ensures |r| <= |o|
    ensures !HasKey(r, k)
    ensures forall key | key != k :: Get(r, key) == Get(o, key)
    decreases |o|
  {
    if |o| == 0 then []
    else
      var p := o[..|o| - 1];
      var last := o[|o| - 1];
      assert o == p + [last];
      var rp := Remove(p, k);
      var r := if last.0 == k then rp else rp + [last];
      assert forall key | key != k :: Get(r, key) == Get(o, key) by {
        forall key | key != k
          ensures Get(r, key) == Get(o, key)
        {
          GetSnoc(p, last.0, last.1, key);
          if last.0 != k {
            GetSnoc(rp, last.0, last.1, key);
          }
        }
      }
      assert !HasKey(r, k) by {
        if last.0 != k {
          GetSnoc(rp, last.0, last.1, k);
        }
      }
      r
  }

  /** `{...o, [k]: v}` as far as lookups can tell: `k` now maps to `v`, every other key is untouched.
      An overridden key moves to the end, where object spread keeps its position;
      only lookups follow a `Set` in this model, so the order does not show. */
  function Set<V>(o: Object<V>, k: string, v: V): (r: Object<V>)
    ensures Get(r, k) == Some(v)
    ensures forall key | key != k :: Get(r, key) == Get(o, key)
  {
    var rm := Remove(o, k);
    forall key ensures Get(rm + [(k, v)], key) == if k == key then Some(v) else Get(rm, key) {
      GetSnoc(rm, k, v, key);
    }
    rm + [(k, v)]
  }

  /** The member names, in order. */
  function Keys<V>(o: Object<V>): (ks: seq<string>)
    ensures |ks| == |o|
    ensures forall i | 0 <= i < |o| :: ks[i] == o[i].0
  {
    if |o| == 0 then [] else [o[0].0] + Keys(o[1..])
  }

  /** The object whose members pair each name with the value at the same position. */
  function Zip<V>(ks: seq<string>, vs: seq<V>): (o: Object<V>)
    requires |ks| == |vs|
    ensures |o| == |ks|
    ensures forall i | 0 <= i < |o| :: o[i] == (ks[i], vs[i])
    ensures Keys(o) == ks
  {
    if |ks| == 0 then [] else [(ks[0], vs[0])] + Zip(ks[1..], vs[1..])
  }

  lemma {:induction false} KeysAppend<V>(a: Object<V>, b: Object<V>)
    ensures Keys(a + b) == Keys(a) + Keys(b)
  {
  }

  predicate Distinct(ks: seq<string>) {
    forall i, j | 0 <= i < j < |ks| :: ks[i] != ks[j]
  }

  /** No name after position `i` repeats the name at `i`. */
  predicate UniqueFrom(ks: seq<string>, i: nat)
    requires i < |ks|
  {
    forall j | i < j < |ks| :: ks[j] != ks[i]
  }

  /** `Distinct`, checked one position at a time. */
  lemma {:induction false} UniqueFromDistinct(ks: seq<string>)
    requires forall i | 0 <= i < |ks| :: UniqueFrom(ks, i)
    ensures Distinct(ks)
  {
    forall i, j | 0 <= i < j < |ks| ensures ks[i] != ks[j] {
      assert UniqueFrom(ks, i);
    }
  }

  /** In an object without duplicate names, every member is found by its name. */
  lemma {:induction false} GetDistinct<V>(o: Object<V>, i: int)
    requires Distinct(Keys(o))
    requires 0 <= i < |o|
    ensures Get(o, o[i].0) == Some(o[i].1)
    decreases |o|
  {
    if i < |o| - 1 {
      var p := o[..|o| - 1];
      assert Keys(o)[i] != Keys(o)[|o| - 1];
      assert Keys(p) == Keys(o)[..|o| - 1];
      assert p[i] == o[i];
      GetDistinct(p, i);
    }
  }

  /** `GetDistinct`, with the name given separately. */
  lemma {:induction false} GetAt<V>(o: Object<V>, i: int, k: string)
    requires Distinct(Keys(o))
    requires 0 <= i < |o| && o[i].0 == k
    ensures Get(o, k) == Some(o[i].1)
  {
    GetDistinct(o, i);
  }

  /** A name absent from an object is not found in it. */
  lemma {:induction false} GetMissing<V>(o: Object<V>, k: string)
    requires forall i | 0 <= i < |o| :: o[i].0 != k
    ensures Get(o, k).None?
  {
  }

  // ---------------------------------------------------------------------------
  // JSON.stringify / JSON.parse for flat objects of strings
  // ---------------------------------------------------------------------------

  const Hex := "0123456789abcdef"

  function HexDigit(d: nat): char
    requires d < 16
  {
    Hex[d]
  }

  /** The value of a hexadecimal digit of either case. */
  function HexValue(c: char): (r: Option<nat>)
    ensures r.Some? ==> r.value < 16
  {
    if '0' <= c <= '9' then Some(c as int - '0' as int)
    else if 'a' <= c <= 'f' then Some(c as int - 'a' as int + 10)
    else if 'A' <= c <= 'F' then Some(c as int - 'A' as int + 10)
    else None
  }

  lemma {:induction false} HexValueOfDigit(d: nat)
    requires d < 16
    ensures HexValue(HexDigit(d)) == Some(d)
  {
  }

  /** How `JSON.stringify` writes one character inside a string literal. */
  function EscapeChar(c: char): string {
    if c == '"' then "\\\""
    else if c == '\\' then "\\\\"
    else if c == '\U{8}' then "\\b"
    else if c == '\U{C}' then "\\f"
    else if c == '\n' then "\\n"
    else if c == '\r' then "\\r"
    else if c == '\t' then "\\t"
    else if c < ' ' then "\\u00" + [HexDigit(c as int / 16), HexDigit(c as int % 16)]
    else [c]
  }

  function Escape(s: string): string {
    if |s| == 0 then "" else EscapeChar(s[0]) + Escape(s[1..])
  }

  /** One member `"key":"value"`. */
  function Member(e: (string, string)): string {
    "\"" + Escape(e.0) + "\":\"" + Escape(e.1) + "\""
  }

  /** The members joined by commas. */
  function Members(o: Object<string>): string
    decreases |o|
  {
    if |o| == 0 then ""
    else if |o| == 1 then Member(o[0])
    else Member(o[0]) + "," + Members(o[1..])
  }

  /** `JSON.stringify(o)` for a flat object of strings. */
  function Serialise(o: Object<string>): string {
    "{" + Members(o) + "}"
  }

  /** Decodes the escape sequence after a backslash; returns the character and the rest. */
  function Unescape(s: string): (r: Option<(char, string)>)
    ensures r.Some? ==> |r.value.1| < |s|
  {
    if |s| == 0 then None
    else if s[0] == '"' || s[0] == '\\' || s[0] == '/' then Some((s[0], s[1..]))
    else if s[0] == 'b' then Some(('\U{8}', s[1..]))
    else if s[0] == 'f' then Some(('\U{C}', s[1..]))
    else if s[0] == 'n' then Some(('\n', s[1..]))
    else if s[0] == 'r' then Some(('\r', s[1..]))
    else if s[0] == 't' then Some(('\t', s[1..]))
    else if s[0] == 'u' && |s| >= 5 then
      match (HexValue(s[1]), HexValue(s[2]), HexValue(s[3]), HexValue(s[4]))
      case (Some(a), Some(b), Some(c), Some(d)) =>
        var code := a * 4096 + b * 256 + c * 16 + d;
        // a lone surrogate is not a character
        if 0xD800 <= code <= 0xDFFF then None else Some((code as char, s[5..]))
      case _ => None
    else None
  }

  /** Prepends a decoded character to a parsed string. */
  function Cons(c: char, r: Option<(string, string)>): Option<(string, string)> {
    match r
    case None => None
    case Some((t, rest)) => Some(([c] + t, rest))
  }

  /** Reads a string literal's contents up to its closing quote; returns them and what follows. */
  function ParseChars(s: string): (r: Option<(string, string)>)
    ensures r.Some? ==> |r.value.1| < |s|
    decreases |s|
  {
    if |s| == 0 then None
    else if s[0] == '"' then Some(("", s[1..]))
    else if s[0] == '\\' then
      match Unescape(s[1..])
      case None => None
      case Some((c, rest)) => Cons(c, ParseChars(rest))
    else if s[0] < ' ' then None
    else Cons(s[0], ParseChars(s[1..]))
  }

  /** Reads `"k":"v"` members up to the closing brace; returns them and what follows. */
  function ParseMembers(s: string): (r: Option<(Object<string>, string)>)
    ensures r.Some? ==> |r.value.1| < |s|
    decreases |s|, 1
  {
    if |s| == 0 || s[0] != '"' then None
    else match ParseChars(s[1..])
      case None => None
      case Some((k, r1)) =>
        if |r1| < 2 || r1[0] != ':' || r1[1] != '"' then None
        else match ParseChars(r1[2..])
          case None => None
          case Some((v, r2)) => MoreMembers(k, v, r2)
  }

  /** After member `k: v`, either the closing brace or a comma and further members. */
  function MoreMembers(k: string, v: string, s: string): (r: Option<(Object<string>, string)>)
    ensures r.Some? ==> |r.value.1| < |s|
    decreases |s|, 0
  {
    if |s| == 0 then None
    else if s[0] == '}' then Some(([(k, v)], s[1..]))
    else if s[0] == ',' then
      match ParseMembers(s[1..])
      case None => None
      case Some((m, rest)) => Some(([(k, v)] + m, rest))
    else None
  }

  /** `JSON.parse(s)` when `s` denotes a flat object of strings; None stands for a thrown SyntaxError. */
  function Parse(s: string): Option<Object<string>> {
    if |s| < 2 || s[0] != '{' then None
    else if s[1] == '}' then (if |s| == 2 then Some([]) else None)
    else match ParseMembers(s[1..])
      case Some((m, rest)) => if |rest| == 0 then Some(m) else None
      case None => None
  }

  // ---------------------------------------------------------------------------
  // Round trip
  // ---------------------------------------------------------------------------

  /** Each escaped character reads back as itself. */
  lemma {:induction false} ParseEscapeChar(c: char, t: string)
    ensures ParseChars(EscapeChar(c) + t) == Cons(c, ParseChars(t))
  {
    var s := EscapeChar(c) + t;
    if c == '"' || c == '\\' {
      assert s[1..] == [c] + t;
    } else if c == '\U{8}' || c == '\U{C}' || c == '\n' || c == '\r' || c == '\t' {
      assert s[0] == '\\';
      assert s[1..] == EscapeChar(c)[1..] + t;
    } else if c < ' ' {
      ParseUnicodeEscape(c, t);
    } else {
      assert s[0] == c && s[1..] == t;
    }
  }

  /** A control character without a short escape reads back from its `\u00XX` form. */
  lemma {:induction false} ParseUnicodeEscape(c: char, t: string)
    requires c < ' ' && c != '\U{8}' && c != '\U{C}' && c != '\n' && c != '\r' && c != '\t'
    ensures ParseChars(EscapeChar(c) + t) == Cons(c, ParseChars(t))
  {
    var hi, lo := c as int / 16, c as int % 16;
    HexValueOfDigit(hi);
    HexValueOfDigit(lo);
    var u := ['u', '0', '0', HexDigit(hi), HexDigit(lo)] + t;
    assert EscapeChar(c) + t == ['\\'] + u;
    assert u[5..] == t;
    assert Unescape(u) == Some((c, t));
  }

  /** An escaped string followed by a closing quote reads back as the string. */
  lemma {:induction false} ParseEscape(x: string, rest: string)
    ensures ParseChars(Escape(x) + "\"" + rest) == Some((x, rest))
    decreases |x|
  {
    if |x| == 0 {
      assert Escape(x) + "\"" + rest == "\"" + rest;
    } else {
      var tail := Escape(x[1..]) + "\"" + rest;
      assert Escape(x) + "\"" + rest == EscapeChar(x[0]) + tail;
      ParseEscapeChar(x[0], tail);
      ParseEscape(x[1..], rest);
      assert [x[0]] + x[1..] == x;
    }
  }

  lemma Assoc<T>(a: seq<T>, b: seq<T>, c: seq<T>)
    ensures a + b + c == a + (b + c)
  {
  }

  /** A member followed by more text, with its pieces grouped from the right. */
  lemma {:induction false} MemberLayout(k: string, v: string, tail: string)
    ensures Member((k, v)) + tail == "\"" + (Escape(k) + "\"" + (":\"" + (Escape(v) + "\"" + tail)))
  {
    var q, cq, ek, ev := "\"", ":\"", Escape(k), Escape(v);
    var vt := ev + q + tail;
    Assoc(ev, q, tail);
    assert "\":\"" == q + cq;
    Assoc(q + ek + (q + cq) + ev, q, tail);
    Assoc(q + ek + (q + cq), ev, q + tail);
    Assoc(q + ek, q + cq, vt);
    Assoc(q, cq, vt);
    Assoc(q, ek, q + (cq + vt));
    Assoc(ek, q, cq + vt);
  }

  /** `ParseMembers` unfolded once, given how its two string literals read. */
  lemma {:induction false} ParseMembersStep(s: string, k: string, r1: string, v: string, r2: string)
    requires |s| > 0 && s[0] == '"' && ParseChars(s[1..]) == Some((k, r1))
    requires |r1| >= 2 && r1[0] == ':' && r1[1] == '"' && ParseChars(r1[2..]) == Some((v, r2))
    ensures ParseMembers(s) == MoreMembers(k, v, r2)
  {
  }

  /** One member reads back as its key and value, leaving what follows it. */
  lemma {:induction false} ParseMemberHead(k: string, v: string, tail: string)
    ensures ParseMembers(Member((k, v)) + tail) == MoreMembers(k, v, tail)
  {
    var r2 := Escape(v) + "\"" + tail;
    var r1 := ":\"" + r2;
    var t1 := Escape(k) + "\"" + r1;
    var s := Member((k, v)) + tail;
    MemberLayout(k, v, tail);
    assert s == "\"" + t1;
    assert s[1..] == t1;
    ParseEscape(k, r1);
    assert r1[2..] == r2;
    ParseEscape(v, tail);
    ParseMembersStep(s, k, r1, v, tail);
  }

  /** The text after the first member: the closing brace, or a comma and the other members. */
  function After(o: Object<string>, rest: string): string
    requires |o| > 0
  {
    if |o| == 1 then "}" + rest else "," + (Members(o[1..]) + "}" + rest)
  }

  lemma {:induction false} MembersSplit(o: Object<string>, rest: string)
    requires |o| > 0
    ensures Members(o) + "}" + rest == Member(o[0]) + After(o, rest)
    ensures |Members(o)| > 0 && Members(o)[0] == '"'
  {
    var m := Member(o[0]);
    assert m[0] == '"';
    if |o| == 1 {
      Assoc(m, "}", rest);
    } else {
      var ms := Members(o[1..]);
      Assoc(m + "," + ms, "}", rest);
      Assoc(m + ",", ms, "}" + rest);
      Assoc(ms, "}", rest);
      Assoc(m, ",", ms + "}" + rest);
    }
  }

  /** The members of a non-empty object, then the closing brace, read back as the object. */
  lemma {:induction false} ParseMembersRoundTrip(o: Object<string>, rest: string)
    requires |o| > 0
    ensures ParseMembers(Members(o) + "}" + rest) == Some((o, rest))
    decreases |o|
  {
    var tail := After(o, rest);
    MembersSplit(o, rest);
    ParseMemberHead(o[0].0, o[0].1, tail);
    if |o| == 1 {
      assert tail[1..] == rest;
      assert [(o[0].0, o[0].1)] == o;
    } else {
      assert tail[1..] == Members(o[1..]) + "}" + rest;
      ParseMembersRoundTrip(o[1..], rest);
      assert [(o[0].0, o[0].1)] + o[1..] == o;
    }
  }

  /** The snapshot round trip: parsing what `Serialise` wrote gives back the same object. */
  lemma {:induction false} ParseSerialise(o: Object<string>)
    ensures Parse(Serialise(o)) == Some(o)
  {
    var s := Serialise(o);
    if |o| == 0 {
      assert s == "{}";
    } else {
      var m := Members(o) + "}";
      MembersSplit(o, "");
      Assoc("{", Members(o), "}");
      assert s == "{" + m && s[1..] == m && m + "" == m;
      assert s[1] == '"';
      ParseMembersRoundTrip(o, "");
    }
  }

  /** Distinct objects serialise to distinct texts. */
  lemma {:induction false} SerialiseInjective(a: Object<string>, b: Object<string>)
    requires Serialise(a) == Serialise(b)
    ensures a == b
  {
    ParseSerialise(a);
    ParseSerialise(b);
  }
}

=== FILE: payment_verifier.dfy ===
/**
 * The payment verifier (netlify/functions/verify-payment.js). Given a returned
 * session id it reads the session back from the payment provider, decides
 * paid / not paid, and only when paid recovers the form snapshot and plan id
 * stored in the metadata. It writes nothing: the provider's reply is its only input
 * besides the request, so two calls on the same session give identical bodies.
 */
module PaymentVerifier {
  import opened Wrappers
  import opened Http
  import Json

  /** The provider's one payment status that counts as paid. */
  const PaidStatus := "paid"

  datatype Env = Env(stripeSecretKey: Option<string>)

  datatype Request = Request(sessionId: Option<string>)

  datatype Event = Event(httpMethod: Method, body: Body<Request>)

  /** Session metadata as stored by the provider; a key may be missing. */
  datatype StoredMetadata = StoredMetadata(formData: Option<string>, selectedPlan: Option<string>)

  /** The fields of a retrieved checkout session the handler reads. */
  datatype Session = Session(
    paymentStatus: string,
    customerEmail: Option<string>,
    amountTotal: Option<int>,
    metadata: Option<StoredMetadata>)

  datatype RetrieveReply = Retrieved(session: Session) | RetrieveFailed(message: string)

  /** The success body `{paid, formData, selectedPlan, customer_email, amount_total}`. */
  datatype Verification = Verification(
    paid: bool,
    formData: Option<Json.Object<string>>,
    selectedPlan: Option<string>,
    customerEmail: Option<string>,
    amountTotal: Option<int>)

  datatype ResponseBody =
    | NoContent
    | Failure(error: string, details: Option<string>)
    | Verified(result: Verification)

  datatype Response = Response(status: int, body: ResponseBody)

  /** The response, and the session id read back from the provider (None: no read). */
  datatype Outcome = Outcome(retrieved: Option<string>, response: Response)

  /** The snapshot stored in a session's metadata, if it parses. */
  function StoredSnapshot(session: Session): Option<Json.Object<string>> {
    if session.metadata.Some? && session.metadata.value.formData.Some? then
      Json.Parse(session.metadata.value.formData.value)
    else None
  }

  /** The paid decision and snapshot recovery applied to a retrieved session. */
  function Recover(session: Session): (v: Verification)
    ensures v.paid <==> session.paymentStatus == PaidStatus
    // not paid: nothing is recovered, whatever the metadata holds
    ensures !v.paid ==> v.formData.None? && v.selectedPlan.None?
    // paid: the snapshot is recovered exactly when it parses
    ensures v.paid ==> v.formData == StoredSnapshot(session)
    ensures v.formData.Some? ==> v.selectedPlan == session.metadata.value.selectedPlan
    // a parse failure is swallowed: both stay null
    ensures v.formData.None? ==> v.selectedPlan.None?
    // the provider's email and total pass through unchanged
    ensures v.customerEmail == session.customerEmail && v.amountTotal == session.amountTotal
  {
    var paid := session.paymentStatus == PaidStatus;
    var recovered :=
      if paid && session.metadata.Some? then
        // JSON.parse(undefined) throws, as does any text that is not an object
        match StoredSnapshot(session)
        case Some(form) => Some((form, session.metadata.value.selectedPlan))
        case None => None
      else None;
    Verification(
      paid,
      if recovered.Some? then Some(recovered.value.0) else None,
      if recovered.Some? then recovered.value.1 else None,
      session.customerEmail,
      session.amountTotal)
  }

  function Error(status: int, error: string): Response {
    Response(status, Failure(error, None))
  }

  /** The handler. The provider reply is consulted only when a session id was given. */
  function Handle(event: Event, env: Env, reply: RetrieveReply): (o: Outcome)
    ensures event.httpMethod == Options ==> o == Outcome(None, Response(200, NoContent))
    ensures event.httpMethod == OtherMethod ==> o.retrieved.None? && o.response.status == 405
    ensures event.httpMethod == Post && !Present(env.stripeSecretKey) ==>
              o == Outcome(None, Error(500, "Stripe secret key not configured"))
    ensures event.httpMethod == Post && Present(env.stripeSecretKey) && !event.body.Parsed? ==>
              o.retrieved.None? && o.response.status == 500
    ensures event.httpMethod == Post && Present(env.stripeSecretKey) && event.body.Parsed?
              && !Present(event.body.value.sessionId) ==>
              o == Outcome(None, Error(400, "Missing session_id"))
    // the session read back is the one named in the request
    ensures o.retrieved.Some? ==>
              event.httpMethod == Post && Present(env.stripeSecretKey) && event.body.Parsed?
              && o.retrieved == event.body.value.sessionId && Present(o.retrieved)
    // and a configured request naming a session always reads it back
    ensures event.httpMethod == Post && Present(env.stripeSecretKey) && event.body.Parsed?
              && Present(event.body.value.sessionId) ==>
              o.retrieved == event.body.value.sessionId
    // 200 exactly when the provider returned the session; the body is its verification
    ensures o.response.status == 200 && event.httpMethod != Options <==> o.retrieved.Some? && reply.Retrieved?
    ensures o.retrieved.Some? && reply.Retrieved? ==> o.response.body == Verified(Recover(reply.session))
    ensures o.retrieved.Some? && reply.RetrieveFailed? ==>
              o.response == Response(500, Failure("Failed to verify payment", Some(reply.message)))
  {
    match MethodGate(event.httpMethod)
    case Preflight => Outcome(None, Response(200, NoContent))
    case NotAllowed => Outcome(None, Error(405, "Method not allowed"))
    case Proceed =>
      if !Present(env.stripeSecretKey) then Outcome(None, Error(500, "Stripe secret key not configured"))
      else match event.body
        case Malformed => Outcome(None, Response(500, Failure("Failed to verify payment", Some(SyntaxError))))
        case JsonNull => Outcome(None, Response(500, Failure("Failed to verify payment", Some(TypeError))))
        case Parsed(req) =>
          if !Present(req.sessionId) then Outcome(None, Error(400, "Missing session_id"))
          else match reply
            case Retrieved(session) => Outcome(req.sessionId, Response(200, Verified(Recover(session))))
            case RetrieveFailed(msg) =>
              Outcome(req.sessionId, Response(500, Failure("Failed to verify payment", Some(msg))))
  }
}

=== FILE: profile_store.dfy ===
/**
 * The profile table (`user_profiles`) as the two privileged handlers see it: a
 * sequence of rows keyed by id, filtered and updated by email. Columns the
 * handlers never read are kept together as `details`.
 */
module ProfileStore {
  import opened Wrappers
  import Json

  datatype Row = Row(id: string, email: string, role: string, createdAt: string, updatedAt: string, details: Json.Object<string>)

  type Table = seq<Row>

  const SuperAdmin := "super_admin"

  /** The primary key: no two rows share an id. */
  predicate UniqueIds(t: Table) {
    forall i, j | 0 <= i < j < |t| :: t[i].id != t[j].id
  }

  predicate HasId(t: Table, id: string) {
    exists i | 0 <= i < |t| :: t[i].id == id
  }

  /** `.eq('email', email)`: the rows with that email, in table order. */
  function WithEmail(t: Table, email: string): (r: Table)
    ensures |r| <= |t|
    ensures forall i | 0 <= i < |r| :: r[i].email == email
    ensures forall i | 0 <= i < |t| && t[i].email == email :: t[i] in r
    ensures forall x | x in r :: x in t
  {
    if |t| == 0 then []
    else if t[0].email == email then [t[0]] + WithEmail(t[1..], email)
    else WithEmail(t[1..], email)
  }

  /** The index of the first row with that email. */
  function FirstWithEmail(t: Table, email: string): (r: Option<nat>)
    ensures r.None? <==> |WithEmail(t, email)| == 0
    ensures r.Some? ==> r.value < |t| && t[r.value] == WithEmail(t, email)[0]
    ensures r.Some? ==> forall j | 0 <= j < r.value :: t[j].email != email
  {
    if |t| == 0 then None
    else if t[0].email == email then Some(0)
    else match FirstWithEmail(t[1..], email)
      case None => None
      case Some(i) => Some(i + 1)
  }

  /** `.update({role}).eq('email', email)`: every row with that email gets the role. */
  function SetRoleWhere(t: Table, email: string, role: string): (r: Table)
    ensures |r| == |t|
    ensures forall i | 0 <= i < |t| ::
              r[i] == if t[i].email == email then t[i].(role := role) else t[i]
  {
    if |t| == 0 then [] else
      [if t[0].email == email then t[0].(role := role) else t[0]] + SetRoleWhere(t[1..], email, role)
  }

  /** The rows `SetRoleWhere` returns are the matching rows, each with the new role. */
  lemma {:induction false} SetRoleWhereSelects(t: Table, email: string, role: string)
    ensures |WithEmail(SetRoleWhere(t, email, role), email)| == |WithEmail(t, email)|
    ensures forall i | 0 <= i < |WithEmail(t, email)| ::
              WithEmail(SetRoleWhere(t, email, role), email)[i] == WithEmail(t, email)[i].(role := role)
  {
    if |t| > 0 {
      SetRoleWhereSelects(t[1..], email, role);
      assert SetRoleWhere(t, email, role)[1..] == SetRoleWhere(t[1..], email, role);
    }
  }

  /** Setting a role twice is setting it once. */
  lemma {:induction false} SetRoleWhereIdempotent(t: Table, email: string, role: string)
    ensures SetRoleWhere(SetRoleWhere(t, email, role), email, role) == SetRoleWhere(t, email, role)
  {
    var once := SetRoleWhere(t, email, role);
    var twice := SetRoleWhere(once, email, role);
    forall i | 0 <= i < |t| ensures twice[i] == once[i] {
      assert once[i].email == t[i].email;
    }
  }

  /** Setting a role keeps every id, so the primary key still holds. */
  lemma {:induction false} SetRoleWhereKeepsIds(t: Table, email: string, role: string)
    requires UniqueIds(t)
    ensures UniqueIds(SetRoleWhere(t, email, role))
  {
    var r := SetRoleWhere(t, email, role);
    assert forall i | 0 <= i < |t| :: r[i].id == t[i].id;
  }

  /** Appending a row adds it to the rows with its email, and to no other. */
  lemma {:induction false} WithEmailSnoc(t: Table, row: Row, email: string)
    ensures WithEmail(t + [row], email) == WithEmail(t, email) + (if row.email == email then [row] else [])
  {
    if |t| > 0 {
      assert (t + [row])[1..] == t[1..] + [row];
      WithEmailSnoc(t[1..], row, email);
    } else {
      assert t + [row] == [row];
    }
  }

  /** Rewriting a row without changing its email keeps the number of rows with
      each email, and the position of the first. */
  lemma {:induction false} WithEmailUpdate(t: Table, i: nat, row: Row, email: string)
    requires i < |t| && row.email == t[i].email
    ensures |WithEmail(t[i := row], email)| == |WithEmail(t, email)|
    ensures FirstWithEmail(t[i := row], email) == FirstWithEmail(t, email)
  {
    if i > 0 {
      assert t[i := row][1..] == t[1..][i - 1 := row];
      WithEmailUpdate(t[1..], i - 1, row, email);
    } else {
      assert t[i := row][1..] == t[1..];
    }
  }
}

=== FILE: protected_route.dfy ===
/**
 * The guard around signed-in pages (src/components/ProtectedRoute.tsx): while the
 * auth state is loading it shows a spinner, with nobody signed in it navigates
 * home, replacing the history entry, and otherwise it renders the page.
 */
module ProtectedRoute {
  import opened Wrappers
  import AuthContext

  datatype View = Spinner | Navigate(to: string, replace: bool) | Children

  function Guard(loading: bool, user: Option<AuthContext.User>): (v: View)
    ensures v.Spinner? <==> loading
    ensures v.Navigate? <==> !loading && user.None?
    ensures v.Navigate? ==> v == Navigate("/", true)
    ensures v.Children? <==> !loading && user.Some?
  {
    if loading then Spinner
    else if user.None? then Navigate("/", true)
    else Children
  }

  /** Only whether somebody is signed in matters, not who. */
  lemma {:induction false} GuardIgnoresIdentity(loading: bool, u: AuthContext.User, w: AuthContext.User)
    ensures Guard(loading, Some(u)) == Guard(loading, Some(w))
  {
  }

  /** Signing out shows the spinner while the remote sign-out runs, then leaves
      the page for home; the page is never rendered for the signed-out state. */
  lemma {:induction false} SignOutLeavesPage(s: AuthContext.State)
    ensures var (during, after) := AuthContext.SignOut(s);
            Guard(during.loading, during.user) == Spinner
            && Guard(after.loading, after.user) == Navigate("/", true)
  {
  }

  /** In the state the context starts in, the page waits. */
  lemma {:induction false} InitialWaits()
    ensures Guard(AuthContext.Initial.loading, AuthContext.Initial.user) == Spinner
  {
  }
}

=== FILE: role_based_redirect.dfy ===
/**
 * The role-based redirect (src/components/RoleBasedRedirect.tsx): once a user
 * and their profile are loaded, the entry pages send administrators to the admin
 * area and everybody else to the dashboard, and the admin area sends
 * non-administrators away. Whether the user is an administrator is an input here,
 * because the component reads two flags from the auth context.
 */
module RoleBasedRedirect {
  import opened Wrappers
  import AuthContext

  datatype Navigation = Navigation(to: string, replace: bool)

  /** The navigation the effect performs, if any. */
  function Decide(loading: bool, signedIn: bool, hasProfile: bool, isAdmin: bool, isSuperAdmin: bool, path: string)
    : (r: Option<Navigation>)
    // nothing happens while loading, or without both a user and a profile
    ensures loading || !signedIn || !hasProfile ==> r.None?
    // every navigation replaces the history entry
    ensures r.Some? ==> r.value.replace
    ensures r.Some? ==> r.value.to == "/admin" || r.value.to == "/dashboard"
    // administrators go to the admin area, and only from an entry page
    ensures r == Some(Navigation("/admin", true)) <==>
              !loading && signedIn && hasProfile && (isAdmin || isSuperAdmin) && (path == "/" || path == "/login")
    ensures r == Some(Navigation("/dashboard", true)) <==>
              !loading && signedIn && hasProfile && !isAdmin && !isSuperAdmin
              && (path == "/" || path == "/login" || path == "/admin")
  {
    if !loading && signedIn && hasProfile then
      if path == "/" || path == "/login" then
        if isSuperAdmin || isAdmin then Some(Navigation("/admin", true)) else Some(Navigation("/dashboard", true))
      else if path == "/admin" && !isAdmin && !isSuperAdmin then Some(Navigation("/dashboard", true))
      else None
    else None
  }

  /** One redirect is enough: at the page it leads to, the effect does nothing more. */
  lemma {:induction false} RedirectSettles(loading: bool, signedIn: bool, hasProfile: bool, isAdmin: bool, isSuperAdmin: bool, path: string)
    requires Decide(loading, signedIn, hasProfile, isAdmin, isSuperAdmin, path).Some?
    ensures var n := Decide(loading, signedIn, hasProfile, isAdmin, isSuperAdmin, path).value;
            Decide(loading, signedIn, hasProfile, isAdmin, isSuperAdmin, n.to).None?
  {
  }

  /** The redirect as wired: the context offers no `isAdmin` or `isSuperAdmin`,
      so both read as undefined, that is false. */
  function AsWired(s: AuthContext.State, path: string): Option<Navigation> {
    Decide(s.loading, s.user.Some?, s.profile.Some?, false, false, path)
  }

  /** As wired, a loaded super administrator on the home page is sent to the
      member dashboard, and is sent away from the admin area. */
  lemma {:induction false} AsWiredMisroutesAdmins(u: AuthContext.User, p: AuthContext.Profile)
    requires p.role == "super_admin"
    ensures var s := AuthContext.State(Some(u), Some(p), None, false, false);
            AsWired(s, "/") == Some(Navigation("/dashboard", true))
            && AsWired(s, "/admin") == Some(Navigation("/dashboard", true))
  {
  }

  /** The redirect with the two flags read off the loaded profile's role. */
  function ByRole(s: AuthContext.State, path: string): Option<Navigation> {
    var role := if s.profile.Some? then s.profile.value.role else "";
    Decide(s.loading, s.user.Some?, s.profile.Some?, role == "admin", role == "super_admin", path)
  }

  /** By role, a loaded administrator goes from an entry page to the admin area
      and may stay there, while a loaded member is kept out of it. */
  lemma {:induction false} ByRoleRoutesAdmins(s: AuthContext.State, path: string)
    requires !s.loading && s.user.Some? && s.profile.Some?
    ensures (s.profile.value.role == "admin" || s.profile.value.role == "super_admin") ==>
              (ByRole(s, path) == Some(Navigation("/admin", true)) <==> path == "/" || path == "/login")
              && ByRole(s, "/admin").None?
    ensures !(s.profile.value.role == "admin" || s.profile.value.role == "super_admin") ==>
              ByRole(s, "/admin") == Some(Navigation("/dashboard", true))
  {
  }
}

=== FILE: save_agent_number.dfy ===
/**
 * The agent-number callback (netlify/functions/save-agent-number.js). The
 * provisioning workflow posts a purchased number for a user; the handler cleans
 * the fields, checks them, checks its configuration, looks the user's profile
 * up and marks it as holding that number. The profile table's two replies are
 * inputs; so is the update's time stamp.
 */
module SaveAgentNumber {
  import opened Wrappers
  import opened Http
  import Json

  datatype Env = Env(supabaseUrl: Option<string>, supabaseAnonKey: Option<string>)

  datatype Event = Event(httpMethod: Method, body: Body<Json.Object<Json.JsValue>>)

  /** The single-row select by id: found, or an error with its code and message. */
  datatype LookupReply = Found | LookupFailed(code: string, message: string)

  /** The row update: an error, or the updated rows. */
  datatype UpdateReply = UpdateFailed(message: string) | Updated(rows: seq<Json.Object<Json.JsValue>>)

  /** The update sent: the row id and the new column values. */
  datatype Update = Update(userId: string, agentNumber: string, hasAgentNumber: bool, updatedAt: string)

  datatype ResponseBody =
    | NoContent
    | Failure(error: string, details: Option<string>, failedUserId: Option<string>)
    | Saved(userId: string, agentNumber: string, friendlyName: string, updatedProfile: Json.Object<Json.JsValue>)

  datatype Response = Response(status: int, body: ResponseBody)

  /** The response, the user id looked up (None: no lookup) and the update sent (None: none). */
  datatype Outcome = Outcome(lookup: Option<string>, update: Option<Update>, response: Response)

  /** The lookup's "no rows" error code. */
  const NoRows := "PGRST116"

  /** `value?.toString().replace(/^=/, '') || ''`. */
  function Clean(v: Option<Json.JsValue>): (r: string)
    ensures Json.ToJsString(v).None? ==> r == ""
    // at most one leading '=' is removed, nothing else changes
    ensures Json.ToJsString(v).Some? ==> var s := Json.ToJsString(v).value; s == r || s == "=" + r
    ensures Json.ToJsString(v).Some? && |Json.ToJsString(v).value| > 0 && Json.ToJsString(v).value[0] != '=' ==>
              r == Json.ToJsString(v).value
    // a leading '=' is removed, and only the first: "==x" cleans to "=x"
    ensures Json.ToJsString(v).Some? && |Json.ToJsString(v).value| > 0 && Json.ToJsString(v).value[0] == '=' ==>
              r == Json.ToJsString(v).value[1..]
  {
    match Json.ToJsString(v)
    case None => ""
    case Some(s) => if |s| > 0 && s[0] == '=' then s[1..] else s
  }

  function Error(status: int, error: string): Response {
    Response(status, Failure(error, None, None))
  }

  const MissingMessage := "Missing required fields: phoneNumber and user_id are required"

  /** The handler. */
  function Handle(event: Event, env: Env, lookup: LookupReply, update: UpdateReply, now: string): (o: Outcome)
    ensures event.httpMethod == Options ==> o == Outcome(None, None, Response(200, NoContent))
    ensures event.httpMethod == OtherMethod ==> o.lookup.None? && o.response.status == 405
    ensures event.httpMethod == Post && event.body.Malformed? ==>
              o == Outcome(None, None, Error(400, "Invalid JSON in request body"))
    // a `null` body fails on its first field read and lands in the generic handler
    ensures event.httpMethod == Post && event.body.JsonNull? ==>
              o == Outcome(None, None, Response(500, Failure("Internal server error", Some(TypeError), None)))
    // input is validated before the configuration is looked at
    ensures event.httpMethod == Post && event.body.Parsed?
              && (Clean(Json.Get(event.body.value, "phoneNumber")) == "" || Clean(Json.Get(event.body.value, "user_id")) == "") ==>
              o == Outcome(None, None, Error(400, MissingMessage))
    ensures event.httpMethod == Post && event.body.Parsed?
              && Clean(Json.Get(event.body.value, "phoneNumber")) != "" && Clean(Json.Get(event.body.value, "user_id")) != ""
              && (!Present(env.supabaseUrl) || !Present(env.supabaseAnonKey)) ==>
              o == Outcome(None, None, Error(500, "Supabase not configured"))
    ensures o.lookup.Some? ==>
              && event.httpMethod == Post && event.body.Parsed?
              && Present(env.supabaseUrl) && Present(env.supabaseAnonKey)
              && o.lookup.value == Clean(Json.Get(event.body.value, "user_id")) && o.lookup.value != ""
              && Clean(Json.Get(event.body.value, "phoneNumber")) != ""
    // and a valid, configured request always looks its user up
    ensures event.httpMethod == Post && event.body.Parsed?
              && Clean(Json.Get(event.body.value, "phoneNumber")) != "" && Clean(Json.Get(event.body.value, "user_id")) != ""
              && Present(env.supabaseUrl) && Present(env.supabaseAnonKey) ==>
              o.lookup == Some(Clean(Json.Get(event.body.value, "user_id")))
    // no rows: 404 and no update; any other lookup error: 500 and no update
    ensures o.lookup.Some? && lookup.LookupFailed? ==>
              o.update.None? && o.response.status == (if lookup.code == NoRows then 404 else 500)
    // the update writes the cleaned number and the flag together, on the looked-up row
    ensures o.update.Some? <==> o.lookup.Some? && lookup.Found?
    ensures o.update.Some? ==>
              o.update.value == Update(o.lookup.value, Clean(Json.Get(event.body.value, "phoneNumber")), true, now)
    ensures o.update.Some? && update.UpdateFailed? ==>
              o.response == Response(500, Failure("Failed to update user profile", Some(update.message), o.lookup))
    ensures o.update.Some? && update.Updated? && |update.rows| == 0 ==>
              o.response == Response(500, Failure("Update succeeded but no data returned", None, o.lookup))
    // success exactly when the update returned a row; the body echoes the cleaned fields
    ensures o.response.status == 200 && event.httpMethod != Options <==>
              o.update.Some? && update.Updated? && |update.rows| > 0
    ensures o.response.status == 200 && event.httpMethod != Options ==>
              o.response.body == Saved(o.update.value.userId, o.update.value.agentNumber,
                                       Clean(Json.Get(event.body.value, "friendlyName")), update.rows[0])
  {
    match MethodGate(event.httpMethod)
    case Preflight => Outcome(None, None, Response(200, NoContent))
    case NotAllowed => Outcome(None, None, Error(405, "Method not allowed"))
    case Proceed =>
      match event.body
      case Malformed => Outcome(None, None, Error(400, "Invalid JSON in request body"))
      case JsonNull => Outcome(None, None, Response(500, Failure("Internal server error", Some(TypeError), None)))
      case Parsed(req) =>
        var phone := Clean(Json.Get(req, "phoneNumber"));
        var userId := Clean(Json.Get(req, "user_id"));
        var friendlyName := Clean(Json.Get(req, "friendlyName"));
        if phone == "" || userId == "" then Outcome(None, None, Error(400, MissingMessage))
        else if !Present(env.supabaseUrl) || !Present(env.supabaseAnonKey) then
          Outcome(None, None, Error(500, "Supabase not configured"))
        else match lookup
          case LookupFailed(code, message) =>
            if code == NoRows then
              Outcome(Some(userId), None, Response(404, Failure("User not found in user_profiles table", None, Some(userId))))
            else Outcome(Some(userId), None, Response(500, Failure("Failed to check user existence", Some(message), None)))
          case Found =>
            var u := Update(userId, phone, true, now);
            match update
            case UpdateFailed(message) =>
              Outcome(Some(userId), Some(u), Response(500, Failure("Failed to update user profile", Some(message), Some(userId))))
            case Updated(rows) =>
              if |rows| == 0 then
                Outcome(Some(userId), Some(u), Response(500, Failure("Update succeeded but no data returned", None, Some(userId))))
              else Outcome(Some(userId), Some(u), Response(200, Saved(userId, phone, friendlyName, rows[0])))
  }

  /** A number sent with one '=' in front is stored without it, for the cleaned id,
      whether or not that id was itself sent with a '='. */
  lemma {:induction false} CleanedNumber(event: Event, env: Env, update: UpdateReply, now: string, number: string)
    requires event.httpMethod == Post && event.body.Parsed?
    requires Json.Get(event.body.value, "phoneNumber") == Some(Json.JStr("=" + number)) && number != ""
    requires Clean(Json.Get(event.body.value, "user_id")) != ""
    requires Present(env.supabaseUrl) && Present(env.supabaseAnonKey)
    ensures Handle(event, env, Found, update, now).update ==
              Some(Update(Clean(Json.Get(event.body.value, "user_id")), number, true, now))
  {
    assert ("=" + number)[1..] == number;
  }

  /** Both fields sent with a '=' in front: `{"user_id": "=" + id, "phoneNumber": "=" + number}`
      updates row `id` to `number`. */
  lemma {:induction false} CleanedBoth(body: Json.Object<Json.JsValue>, env: Env, update: UpdateReply, now: string, id: string, number: string)
    requires Json.Get(body, "user_id") == Some(Json.JStr("=" + id)) && id != ""
    requires Json.Get(body, "phoneNumber") == Some(Json.JStr("=" + number)) && number != ""
    requires Present(env.supabaseUrl) && Present(env.supabaseAnonKey)
    ensures Handle(Event(Post, Parsed(body)), env, Found, update, now).update == Some(Update(id, number, true, now))
  {
    assert ("=" + number)[1..] == number;
    assert ("=" + id)[1..] == id;
  }

  /** With the configuration present and the profile found, a posted body is
      written exactly when both its id and its number clean to something. */
  lemma {:induction false} UpdateFor(body: Json.Object<Json.JsValue>, env: Env, update: UpdateReply, now: string)
    requires Present(env.supabaseUrl) && Present(env.supabaseAnonKey)
    ensures var o := Handle(Event(Post, Parsed(body)), env, Found, update, now);
            var userId := Clean(Json.Get(body, "user_id"));
            var phone := Clean(Json.Get(body, "phoneNumber"));
            && (o.update.Some? <==> userId != "" && phone != "")
            && (o.update.Some? ==> o.update.value == Update(userId, phone, true, now))
  {
  }
}

=== FILE: set_super_admin.dfy ===
/**
 * The role promotion handler (netlify/functions/set-super-admin.js): given the
 * shared secret and an email, every profile row with that email gets the role
 * `super_admin`. The table is an input and the updated table an output; a fault
 * of the table service is an input too.
 */
module SetSuperAdmin {
  import opened Wrappers
  import opened Http
  import opened ProfileStore

  /** The secret expected when the environment sets none. */
  const DefaultSecret := "your-super-secret-key-here"

  datatype Env = Env(superAdminSecret: Option<string>, supabaseUrl: Option<string>, serviceRoleKey: Option<string>)

  /** The request fields the handler reads (string values only). */
  datatype Request = Request(email: Option<string>, secret: Option<string>)

  datatype Event = Event(httpMethod: Method, body: Body<Request>)

  datatype ResponseBody =
    | NoContent
    | Failure(error: string, details: Option<string>)
    | Promoted(message: string, user: Row)

  datatype Response = Response(status: int, body: ResponseBody)

  /** The response and the table after the call. */
  datatype Outcome = Outcome(table: Table, response: Response)

  /** `process.env.SUPER_ADMIN_SECRET || 'your-super-secret-key-here'`. */
  function ExpectedSecret(env: Env): (s: string)
    ensures Present(env.superAdminSecret) ==> s == env.superAdminSecret.value
    ensures !Present(env.superAdminSecret) ==> s == DefaultSecret
  {
    if Present(env.superAdminSecret) then env.superAdminSecret.value else DefaultSecret
  }

  function Error(status: int, error: string): Response {
    Response(status, Failure(error, None))
  }

  /** The handler. `fault` is an error the table service reports for the update. */
  function Handle(event: Event, env: Env, t: Table, fault: Option<string>): (o: Outcome)
    // nothing but a successful update changes the table
    ensures o.response.status != 200 ==> o.table == t
    ensures event.httpMethod == Options ==> o == Outcome(t, Response(200, NoContent))
    ensures event.httpMethod == OtherMethod ==> o.response.status == 405
    ensures event.httpMethod == Post && event.body.Malformed? ==> o.response == Error(400, "Invalid JSON in request body")
    // the secret is checked before the email
    ensures event.httpMethod == Post && event.body.Parsed? && event.body.value.secret != Some(ExpectedSecret(env)) ==>
              o.response == Error(401, "Invalid secret key")
    ensures event.httpMethod == Post && event.body.Parsed? && event.body.value.secret == Some(ExpectedSecret(env))
              && !Present(event.body.value.email) ==>
              o.response == Error(400, "Email is required")
    // a `null` body fails on its first field read and lands in the generic handler
    ensures event.httpMethod == Post && event.body.JsonNull? ==>
              o.response == Response(500, Failure("Internal server error", Some(TypeError)))
    // the configuration is checked after the request, before the table is touched
    ensures event.httpMethod == Post && event.body.Parsed? && event.body.value.secret == Some(ExpectedSecret(env))
              && Present(event.body.value.email) && (!Present(env.supabaseUrl) || !Present(env.serviceRoleKey)) ==>
              o.response == Error(500, "Supabase service role key not configured")
    // an error of the update is reported with its message
    ensures event.httpMethod == Post && event.body.Parsed? && event.body.value.secret == Some(ExpectedSecret(env))
              && Present(event.body.value.email) && Present(env.supabaseUrl) && Present(env.serviceRoleKey)
              && fault.Some? ==>
              o.response == Response(500, Failure("Failed to update user role", fault))
    // zero matching rows: 404
    ensures event.httpMethod == Post && event.body.Parsed? && event.body.value.secret == Some(ExpectedSecret(env))
              && Present(event.body.value.email) && Present(env.supabaseUrl) && Present(env.serviceRoleKey)
              && fault.None? && |WithEmail(t, event.body.value.email.value)| == 0 ==>
              o.response == Error(404, "User not found with that email")
    // and at least one matching row: 200
    ensures event.httpMethod == Post && event.body.Parsed? && event.body.value.secret == Some(ExpectedSecret(env))
              && Present(event.body.value.email) && Present(env.supabaseUrl) && Present(env.serviceRoleKey)
              && fault.None? && |WithEmail(t, event.body.value.email.value)| > 0 ==>
              o.response.status == 200
    // success: every row with the email is promoted, and the first of them is returned
    ensures o.response.status == 200 && event.httpMethod != Options ==>
              && event.httpMethod == Post && event.body.Parsed? && Present(event.body.value.email)
              && event.body.value.secret == Some(ExpectedSecret(env)) && fault.None?
              && var email := event.body.value.email.value;
              && o.table == SetRoleWhere(t, email, SuperAdmin)
              && |WithEmail(t, email)| > 0
              && o.response.body == Promoted("User " + email + " has been set as super admin",
                                             WithEmail(t, email)[0].(role := SuperAdmin))
  {
    match MethodGate(event.httpMethod)
    case Preflight => Outcome(t, Response(200, NoContent))
    case NotAllowed => Outcome(t, Error(405, "Method not allowed"))
    case Proceed =>
      match event.body
      case Malformed => Outcome(t, Error(400, "Invalid JSON in request body"))
      case JsonNull => Outcome(t, Response(500, Failure("Internal server error", Some(TypeError))))
      case Parsed(req) =>
        if req.secret != Some(ExpectedSecret(env)) then Outcome(t, Error(401, "Invalid secret key"))
        else if !Present(req.email) then Outcome(t, Error(400, "Email is required"))
        else if !Present(env.supabaseUrl) || !Present(env.serviceRoleKey) then
          Outcome(t, Error(500, "Supabase service role key not configured"))
        else if fault.Some? then Outcome(t, Response(500, Failure("Failed to update user role", fault)))
        else
          var email := req.email.value;
          var updated := SetRoleWhere(t, email, SuperAdmin);
          SetRoleWhereSelects(t, email, SuperAdmin);
          var rows := WithEmail(updated, email);
          if |rows| == 0 then Outcome(t, Error(404, "User not found with that email"))
          else Outcome(updated, Response(200, Promoted("User " + email + " has been set as super admin", rows[0])))
  }

  /** Promoting again changes nothing more, and the primary key survives. */
  lemma {:induction false} PromoteIdempotent(event: Event, env: Env, t: Table)
    requires Handle(event, env, t, None).response.status == 200
    ensures var t1 := Handle(event, env, t, None).table;
            Handle(event, env, t1, None).table == t1
    ensures UniqueIds(t) ==> UniqueIds(Handle(event, env, t, None).table)
  {
    var o := Handle(event, env, t, None);
    if event.httpMethod == Post {
      var email := event.body.value.email.value;
      SetRoleWhereIdempotent(t, email, SuperAdmin);
      SetRoleWhereSelects(o.table, email, SuperAdmin);
      SetRoleWhereSelects(t, email, SuperAdmin);
      if UniqueIds(t) {
        SetRoleWhereKeepsIds(t, email, SuperAdmin);
      }
    }
  }
}

=== FILE: signup_form.dfy ===
/**
 * The signup form (src/components/SignupForm.tsx). The form is a record of
 * nineteen strings. Submitting validates it, posts the whole form with the plan
 * to the checkout-session handler and redirects to the hosted checkout. The
 * provider later sends the browser back with a session id; the form has it
 * verified and, only for a paid session that carries its snapshot, signs the
 * user up from that snapshot and mirrors a lead to the CRM.
 */
module SignupForm {
  import opened Wrappers
  import opened Http
  import Text
  import Json
  import CheckoutSession
  import PaymentVerifier

  /** The form state, one field per input. */
  datatype Form = Form(
    firstName: string, lastName: string, email: string, phone: string,
    password: string, confirmPassword: string, company: string, address: string,
    city: string, state: string, zipCode: string, businessType: string,
    yearsInBusiness: string, averageJobValue: string, callVolume: string,
    currentChallenges: string, preferredStartDate: string, hearAboutUs: string,
    selectedPlan: string)

  /** The field names, in declaration order: the keys `JSON.stringify` writes. */
  const FormFields: seq<string> := [
    "firstName", "lastName", "email", "phone", "password", "confirmPassword",
    "company", "address", "city", "state", "zipCode", "businessType",
    "yearsInBusiness", "averageJobValue", "callVolume", "currentChallenges",
    "preferredStartDate", "hearAboutUs", "selectedPlan"]

  /** The form's values, in the order of `FormFields`. */
  function Values(f: Form): seq<string> {
    [f.firstName, f.lastName, f.email, f.phone, f.password, f.confirmPassword,
     f.company, f.address, f.city, f.state, f.zipCode, f.businessType,
     f.yearsInBusiness, f.averageJobValue, f.callVolume, f.currentChallenges,
     f.preferredStartDate, f.hearAboutUs, f.selectedPlan]
  }

  /** The form as the flat object sent to the checkout handler. */
  function Snapshot(f: Form): (o: Json.Object<string>)
    ensures Json.Keys(o) == FormFields
  {
    Json.Zip(FormFields, Values(f))
  }

  /** No field name is repeated. */
  lemma {:induction false} FieldsDistinct()
    ensures Json.Distinct(FormFields)
  {
    FieldsUniqueA();
    FieldsUniqueB();
    FieldsUniqueC();
    Json.UniqueFromDistinct(FormFields);
  }

  /** The uniqueness of each field name among those after it, in three ranges of positions. */
  lemma {:induction false} FieldsUniqueA()
    ensures forall i | 0 <= i < 7 :: Json.UniqueFrom(FormFields, i)
  {
  }

  lemma {:induction false} FieldsUniqueB()
    ensures forall i | 7 <= i < 13 :: Json.UniqueFrom(FormFields, i)
  {
  }

  lemma {:induction false} FieldsUniqueC()
    ensures forall i | 13 <= i < 19 :: Json.UniqueFrom(FormFields, i)
  {
  }

  lemma {:induction false} SnapshotDistinct(f: Form)
    ensures Json.Distinct(Json.Keys(Snapshot(f)))
  {
    FieldsDistinct();
  }

  /** Reading a snapshot by a field's name gives back that field of the form. */
  lemma {:induction false} SnapshotReads(f: Form)
    ensures forall i | 0 <= i < |FormFields| :: Json.Get(Snapshot(f), FormFields[i]) == Some(Values(f)[i])
  {
    FieldsDistinct();
    forall i | 0 <= i < |FormFields|
      ensures Json.Get(Snapshot(f), FormFields[i]) == Some(Values(f)[i])
    {
      Json.GetAt(Snapshot(f), i, FormFields[i]);
    }
  }

  /** `SnapshotReads` at one field, named by its literal key. */
  lemma {:induction false} ReadField(f: Form, i: nat, k: string, v: string)
    requires i < |FormFields| && FormFields[i] == k && Values(f)[i] == v
    ensures Json.Get(Snapshot(f), k) == Some(v)
  {
    SnapshotReads(f);
  }

  /** The snapshot carries the email the account is later created with. */
  lemma {:induction false} SnapshotEmail(f: Form)
    ensures Json.Get(Snapshot(f), "email") == Some(f.email)
  {
    ReadField(f, 2, "email", f.email);
  }

  /** The snapshot carries the password the account is later created with. */
  lemma {:induction false} SnapshotPassword(f: Form)
    ensures Json.Get(Snapshot(f), "password") == Some(f.password)
  {
    ReadField(f, 4, "password", f.password);
  }

  // ---------------------------------------------------------------------------
  // The mount effect: what the query string asks for

  datatype Dispatch = VerifyReturn(sessionId: string) | ShowCancelled | NoAction

  const CancelledMessage := "Payment was cancelled. Please try again."

  /** `session_id` wins; `payment=cancelled` is looked at only without it. */
  function DispatchUrl(sessionId: Option<string>, payment: Option<string>): (d: Dispatch)
    ensures d.VerifyReturn? <==> Present(sessionId)
    ensures d.VerifyReturn? ==> d.sessionId == sessionId.value
    ensures d.ShowCancelled? <==> !Present(sessionId) && payment == Some("cancelled")
  {
    if Present(sessionId) then VerifyReturn(sessionId.value)
    else if payment == Some("cancelled") then ShowCancelled
    else NoAction
  }

  /** The event the verifier receives for a dispatched return. */
  function VerifyEvent(sessionId: string): PaymentVerifier.Event {
    PaymentVerifier.Event(Post, Parsed(PaymentVerifier.Request(Some(sessionId))))
  }

  // ---------------------------------------------------------------------------
  // Submission

  const RequiredMessage := "Please fill in all required fields."
  const MismatchMessage := "Passwords do not match."

  predicate RequiredFilled(f: Form) {
    f.firstName != "" && f.lastName != "" && f.email != "" && f.password != "" && f.selectedPlan != ""
  }

  /** The pre-submit validation: the required-field check, then the password match. */
  function SubmitError(f: Form): (e: Option<string>)
    ensures e == Some(RequiredMessage) <==> !RequiredFilled(f)
    ensures e == Some(MismatchMessage) <==> RequiredFilled(f) && f.password != f.confirmPassword
    ensures e.None? <==> RequiredFilled(f) && f.password == f.confirmPassword
  {
    if !RequiredFilled(f) then Some(RequiredMessage)
    else if f.password != f.confirmPassword then Some(MismatchMessage)
    else None
  }

  /** The submit button's `disabled` expression, written as the component writes it. */
  function SubmitDisabled(isSubmitting: bool, isProcessingPayment: bool, f: Form): (r: bool)
    ensures r <==> isSubmitting || isProcessingPayment || SubmitError(f).Some?
  {
    isSubmitting || isProcessingPayment || f.firstName == "" || f.lastName == "" || f.email == ""
    || f.password == "" || f.selectedPlan == "" || f.password != f.confirmPassword
  }

  /** The body posted to the checkout handler: the whole form and its plan. */
  function SubmitRequest(f: Form): CheckoutSession.Request {
    CheckoutSession.Request(Some(Snapshot(f)), Some(f.selectedPlan))
  }

  /** The checkout handler's answer as the browser sees it: a failed `fetch`
      (its error message), or a status and the response text. */
  datatype CheckoutReply = Unreachable(message: string) | Replied(status: int, text: string)

  datatype SubmitOutcome = Redirect(url: string) | PaymentFailed(message: string)

  const InvalidResponseMessage := "Invalid response from payment service. Please contact support if this continues."
  const NotConfiguredMessage := "Stripe is not configured properly. Please contact support."

  /** What the form does with the checkout handler's answer. */
  function CheckoutRedirect(reply: CheckoutReply): (o: SubmitOutcome)
    // a blank or unparseable text is reported before the status is looked at
    ensures reply.Replied? && Text.IsBlank(reply.text) ==> o == PaymentFailed(InvalidResponseMessage)
    ensures reply.Replied? && Json.Parse(reply.text).None? ==>
              o == PaymentFailed(if Text.Contains(reply.text, "STRIPE_SECRET_KEY") && !Text.IsBlank(reply.text)
                                 then NotConfiguredMessage else InvalidResponseMessage)
    // a redirect only on a 2xx answer naming a url, and to exactly that url
    ensures o.Redirect? <==>
              && reply.Replied? && !Text.IsBlank(reply.text) && Json.Parse(reply.text).Some?
              && IsOk(reply.status) && Present(Json.Get(Json.Parse(reply.text).value, "url"))
    ensures o.Redirect? ==> Some(o.url) == Json.Get(Json.Parse(reply.text).value, "url")
    // a non-2xx answer shows the handler's error, with a fallback
    ensures reply.Replied? && !Text.IsBlank(reply.text) && Json.Parse(reply.text).Some? && !IsOk(reply.status) ==>
              var err := Json.Get(Json.Parse(reply.text).value, "error");
              o == PaymentFailed(if Present(err) then err.value else "Failed to create payment session")
    ensures o.PaymentFailed? ==> o.message != ""
  {
    match reply
    case Unreachable(message) =>
      PaymentFailed(if message != "" then message else "Failed to initiate payment. Please try again.")
    case Replied(status, text) =>
      var parsed := if Text.IsBlank(text) then None else Json.Parse(text);
      if parsed.None? then
        PaymentFailed(if !Text.IsBlank(text) && Text.Contains(text, "STRIPE_SECRET_KEY")
                      then NotConfiguredMessage else InvalidResponseMessage)
      else if !IsOk(status) then
        var err := Json.Get(parsed.value, "error");
        PaymentFailed(if Present(err) then err.value else "Failed to create payment session")
      else
        var url := Json.Get(parsed.value, "url");
        if Present(url) then Redirect(url.value) else PaymentFailed("No checkout URL received")
  }

  datatype Status = Idle | Succeeded | Failed(message: string)

  /** `handleSubmit`: the checkout request sent (None: none) and how it ends. */
  datatype SubmitResult = SubmitResult(request: Option<CheckoutSession.Request>, status: Status, outcome: Option<SubmitOutcome>)

  function HandleSubmit(f: Form, reply: CheckoutReply): (r: SubmitResult)
    // a form that fails validation sends nothing and shows the validation message
    ensures SubmitError(f).Some? ==> r == SubmitResult(None, Failed(SubmitError(f).value), None)
    // a valid form posts its full snapshot and plan, and the answer decides the rest
    ensures SubmitError(f).None? ==>
              r.request == Some(SubmitRequest(f)) && r.status == Idle && r.outcome == Some(CheckoutRedirect(reply))
  {
    match SubmitError(f)
    case Some(message) => SubmitResult(None, Failed(message), None)
    case None => SubmitResult(Some(SubmitRequest(f)), Idle, Some(CheckoutRedirect(reply)))
  }

  // ---------------------------------------------------------------------------
  // Account creation after a paid return

  /** Profile columns and the form fields they are copied from. */
  const ProfileColumns: seq<(string, string)> := [
    ("first_name", "firstName"), ("last_name", "lastName"), ("phone", "phone"),
    ("company", "company"), ("business_type", "businessType"), ("address", "address"),
    ("city", "city"), ("state", "state"), ("zip_code", "zipCode"),
    ("years_in_business", "yearsInBusiness"), ("average_job_value", "averageJobValue"),
    ("call_volume", "callVolume"), ("current_challenges", "currentChallenges"),
    ("preferred_start_date", "preferredStartDate"), ("hear_about_us", "hearAboutUs")]

  /** Each column paired with its form field's value; a missing field reads as None. */
  function Project(cols: seq<(string, string)>, form: Json.Object<string>): (r: Json.Object<Option<string>>)
    ensures |r| == |cols|
    ensures forall i | 0 <= i < |cols| :: r[i] == (cols[i].0, Json.Get(form, cols[i].1))
  {
    if |cols| == 0 then [] else [(cols[0].0, Json.Get(form, cols[0].1))] + Project(cols[1..], form)
  }

  /** The profile data passed to `signUp` (None stands for `undefined`/`null`). */
  function ProfilePayload(form: Json.Object<string>, plan: Option<string>): (p: Json.Object<Option<string>>)
    ensures |p| == |ProfileColumns| + 2
    ensures forall i | 0 <= i < |ProfileColumns| ::
              Json.Get(p, ProfileColumns[i].0) == Some(Json.Get(form, ProfileColumns[i].1))
    ensures Json.Get(p, "selected_plan") == Some(plan)
    ensures Json.Get(p, "payment_status") == Some(Some("completed"))
    // neither the password nor its confirmation is copied into the profile
    ensures !Json.HasKey(p, "password") && !Json.HasKey(p, "confirmPassword")
  {
    var p := Project(ProfileColumns, form) + [("selected_plan", plan), ("payment_status", Some("completed"))];
    PayloadDistinct(form, plan);
    forall i | 0 <= i < |ProfileColumns|
      ensures Json.Get(p, ProfileColumns[i].0) == Some(Json.Get(form, ProfileColumns[i].1))
    {
      Json.GetDistinct(p, i);
    }
    Json.GetAt(p, 15, "selected_plan");
    Json.GetAt(p, 16, "payment_status");
    p
  }

  /** The payload repeats no name and carries no password. */
  lemma {:induction false} PayloadDistinct(form: Json.Object<string>, plan: Option<string>)
    ensures var p := Project(ProfileColumns, form) + [("selected_plan", plan), ("payment_status", Some("completed"))];
            Json.Distinct(Json.Keys(p)) && !Json.HasKey(p, "password") && !Json.HasKey(p, "confirmPassword")
  {
    var extra := [("selected_plan", plan), ("payment_status", Some("completed"))];
    ColumnNames();
    ProjectDistinct(ProfileColumns, form, extra);
    ProjectLacks(ProfileColumns, form, extra, "password");
    ProjectLacks(ProfileColumns, form, extra, "confirmPassword");
  }

  /** Distinct column names, distinct from the extra names, give a payload without repeats. */
  lemma {:induction false} ProjectDistinct(cols: seq<(string, string)>, form: Json.Object<string>, extra: Json.Object<Option<string>>)
    requires forall i, j | 0 <= i < j < |cols| :: cols[i].0 != cols[j].0
    requires forall i, j | 0 <= i < |cols| && 0 <= j < |extra| :: cols[i].0 != extra[j].0
    requires Json.Distinct(Json.Keys(extra))
    ensures Json.Distinct(Json.Keys(Project(cols, form) + extra))
  {
    var names := Names(cols);
    var ks := Json.Keys(Project(cols, form) + extra);
    assert ks == names + Json.Keys(extra) by {
      ProjectKeys(cols, form);
      Json.KeysAppend(Project(cols, form), extra);
    }
    assert Json.Distinct(names + Json.Keys(extra)) by {
      DistinctAppend(names, Json.Keys(extra));
    }
  }

  /** The column names of a projection, in order. */
  function Names(cols: seq<(string, string)>): (ns: seq<string>)
    ensures |ns| == |cols| && forall i | 0 <= i < |cols| :: ns[i] == cols[i].0
  {
    seq(|cols|, i requires 0 <= i < |cols| => cols[i].0)
  }

  lemma {:induction false} ProjectKeys(cols: seq<(string, string)>, form: Json.Object<string>)
    ensures Json.Keys(Project(cols, form)) == Names(cols)
  {
    var a := Project(cols, form);
    assert forall i | 0 <= i < |a| :: Json.Keys(a)[i] == a[i].0 == cols[i].0;
  }

  lemma {:induction false} DistinctAppend(a: seq<string>, b: seq<string>)
    requires Json.Distinct(a) && Json.Distinct(b)
    requires forall i, j | 0 <= i < |a| && 0 <= j < |b| :: a[i] != b[j]
    ensures Json.Distinct(a + b)
  {
    var ab := a + b;
    forall i, j | 0 <= i < j < |ab| ensures ab[i] != ab[j] {
      if j < |a| {
        assert ab[i] == a[i] && ab[j] == a[j];
      } else if i < |a| {
        assert ab[i] == a[i] && ab[j] == b[j - |a|];
      } else {
        assert ab[i] == b[i - |a|] && ab[j] == b[j - |a|];
      }
    }
  }

  /** A name that is no column and no extra name is absent from the payload. */
  lemma {:induction false} ProjectLacks(cols: seq<(string, string)>, form: Json.Object<string>, extra: Json.Object<Option<string>>, k: string)
    requires forall i | 0 <= i < |cols| :: cols[i].0 != k
    requires forall j | 0 <= j < |extra| :: extra[j].0 != k
    ensures !Json.HasKey(Project(cols, form) + extra, k)
  {
    var a := Project(cols, form);
    var p := a + extra;
    forall i | 0 <= i < |p| ensures p[i].0 != k {
      if i < |a| {
        assert p[i].0 == cols[i].0;
      } else {
        assert p[i] == extra[i - |a|];
      }
    }
  }

  /** The column names: none repeated, none clashing with the two added names or a password field. */
  lemma {:induction false} ColumnNames()
    ensures forall i, j | 0 <= i < j < |ProfileColumns| :: ProfileColumns[i].0 != ProfileColumns[j].0
    ensures forall i | 0 <= i < |ProfileColumns| ::
              ProfileColumns[i].0 != "selected_plan" && ProfileColumns[i].0 != "payment_status"
              && ProfileColumns[i].0 != "password" && ProfileColumns[i].0 != "confirmPassword"
  {
  }

  /** The arguments of the `signUp` call. */
  datatype SignUpCall = SignUpCall(email: Option<string>, password: Option<string>, profile: Json.Object<Option<string>>)

  const LeadLocation := "yyTbibKYQhtCYuKKsjbN"
  const PlanFieldId := "quFCVTG7j5iVly7ngoig"

  /** The contact posted to the CRM. */
  datatype Lead = Lead(
    locationId: string, kind: string,
    firstName: Option<string>, lastName: Option<string>, email: Option<string>,
    phone: Option<string>, city: Option<string>, address1: Option<string>,
    companyName: Option<string>, state: Option<string>, postalCode: Option<string>,
    customFields: seq<(string, Option<string>)>)

  /** Where a custom field of the lead takes its value from. */
  datatype LeadSource = FormField(key: string) | ChosenPlan

  /** The lead's custom fields: the CRM field id and its source, in the order posted. */
  const LeadCustomFields: seq<(string, LeadSource)> := [
    ("v0eGTMj6rFuXji4r1Omp", FormField("yearsInBusiness")),
    ("7nra59HgaNb7SxfojKLS", FormField("averageJobValue")),
    ("M4uxUGl6zMF4ODz5A3Ju", FormField("callVolume")),
    ("hGuGil82mHIRP8ytL7vy", FormField("currentChallenges")),
    ("SBzpHwGMzeyJiCPpjN1p", FormField("preferredStartDate")),
    ("Pz5nZm958YTBtXD2gPMN", FormField("hearAboutUs")),
    (PlanFieldId, ChosenPlan),
    ("HIedxID7MPkTo3JOyJIB", FormField("businessType"))]

  function SourceValue(form: Json.Object<string>, plan: Option<string>, src: LeadSource): Option<string> {
    match src
    case FormField(k) => Json.Get(form, k)
    case ChosenPlan => plan
  }

  /** Each custom field id paired with the value of its source. */
  function CustomValues(form: Json.Object<string>, plan: Option<string>, specs: seq<(string, LeadSource)>): (cf: seq<(string, Option<string>)>)
    ensures |cf| == |specs|
    ensures forall i | 0 <= i < |specs| :: cf[i] == (specs[i].0, SourceValue(form, plan, specs[i].1))
  {
    if |specs| == 0 then []
    else [(specs[0].0, SourceValue(form, plan, specs[0].1))] + CustomValues(form, plan, specs[1..])
  }

  /** No custom field id is posted twice. */
  lemma {:induction false} LeadIdsDistinct()
    ensures forall i, j | 0 <= i < j < |LeadCustomFields| :: LeadCustomFields[i].0 != LeadCustomFields[j].0
  {
  }

  function LeadFor(form: Json.Object<string>, plan: Option<string>): (l: Lead)
    ensures l.locationId == LeadLocation && l.kind == "lead"
    // the contact's own fields, each from its form field
    ensures l.firstName == Json.Get(form, "firstName") && l.lastName == Json.Get(form, "lastName")
    ensures l.email == Json.Get(form, "email") && l.phone == Json.Get(form, "phone")
    ensures l.city == Json.Get(form, "city") && l.address1 == Json.Get(form, "address")
    ensures l.companyName == Json.Get(form, "company") && l.state == Json.Get(form, "state")
    ensures l.postalCode == Json.Get(form, "zipCode")
    // the eight custom fields, in order, each with the value of its source
    ensures |l.customFields| == |LeadCustomFields|
    ensures forall i | 0 <= i < |LeadCustomFields| ::
              l.customFields[i] == (LeadCustomFields[i].0, SourceValue(form, plan, LeadCustomFields[i].1))
    ensures (PlanFieldId, plan) in l.customFields
  {
    var cf := CustomValues(form, plan, LeadCustomFields);
    assert cf[6] == (PlanFieldId, plan);
    Lead(LeadLocation, "lead",
      Json.Get(form, "firstName"), Json.Get(form, "lastName"), Json.Get(form, "email"),
      Json.Get(form, "phone"), Json.Get(form, "city"), Json.Get(form, "address"),
      Json.Get(form, "company"), Json.Get(form, "state"), Json.Get(form, "zipCode"),
      cf)
  }

  /** `createAccountAfterPayment`: the sign-up call, the CRM lead (None: not
      posted), the status and the navigation target. */
  datatype AccountResult = AccountResult(signUp: SignUpCall, lead: Option<Lead>, status: Status, navigateTo: Option<string>)

  /** `signUpError` is the `error` `signUp` returned (None: null) as its message. */
  function CreateAccountAfterPayment(form: Json.Object<string>, plan: Option<string>, signUpError: Option<string>): (r: AccountResult)
    ensures r.signUp == SignUpCall(Json.Get(form, "email"), Json.Get(form, "password"), ProfilePayload(form, plan))
    // a sign-up error ends it: no lead, no navigation
    ensures r.status.Failed? <==> signUpError.Some?
    ensures signUpError.Some? ==>
              r.lead.None? && r.navigateTo.None?
              && r.status.message == if signUpError.value != "" then signUpError.value else "Account creation failed"
    // otherwise the lead is posted; its failure is swallowed and success stands
    ensures signUpError.None? ==>
              r.lead == Some(LeadFor(form, plan)) && r.status == Succeeded && r.navigateTo == Some("/dashboard")
  {
    var call := SignUpCall(Json.Get(form, "email"), Json.Get(form, "password"), ProfilePayload(form, plan));
    match signUpError
    case Some(m) => AccountResult(call, None, Failed(if m != "" then m else "Account creation failed"), None)
    case None => AccountResult(call, Some(LeadFor(form, plan)), Succeeded, Some("/dashboard"))
  }

  /** `handlePaymentReturn`: the account work done (None: none) and the final status. */
  datatype ReturnResult = ReturnResult(account: Option<AccountResult>, status: Status)

  const NotCompletedMessage := "Payment was not completed successfully"

  /** An account is created only from a 2xx verification that is paid and carries a snapshot. */
  function PaymentReturn(resp: PaymentVerifier.Response, signUpError: Option<string>): (r: ReturnResult)
    ensures r.account.Some? <==>
              && IsOk(resp.status) && resp.body.Verified?
              && resp.body.result.paid && resp.body.result.formData.Some?
    ensures r.account.Some? ==>
              r.account.value == CreateAccountAfterPayment(resp.body.result.formData.value, resp.body.result.selectedPlan, signUpError)
              && r.status == r.account.value.status
    // an empty body cannot be read as JSON
    ensures resp.body.NoContent? ==> r.status == Failed(SyntaxError)
    ensures !resp.body.NoContent? && !IsOk(resp.status) ==>
              r.status == Failed(if resp.body.Failure? && resp.body.error != "" then resp.body.error else "Payment verification failed")
    // unpaid, and paid without a recoverable snapshot, read the same
    ensures IsOk(resp.status) && resp.body.Verified? && r.account.None? ==> r.status == Failed(NotCompletedMessage)
  {
    match resp.body
    case NoContent => ReturnResult(None, Failed(SyntaxError))
    case Failure(error, _) =>
      if !IsOk(resp.status) then
        ReturnResult(None, Failed(if error != "" then error else "Payment verification failed"))
      else ReturnResult(None, Failed(NotCompletedMessage))
    case Verified(v) =>
      if !IsOk(resp.status) then ReturnResult(None, Failed("Payment verification failed"))
      else if v.paid && v.formData.Some? then
        var account := CreateAccountAfterPayment(v.formData.value, v.selectedPlan, signUpError);
        ReturnResult(Some(account), account.status)
      else ReturnResult(None, Failed(NotCompletedMessage))
  }
}

=== FILE: text.dfy ===
/**
 * String helpers the handlers and components rely on: the digit filter behind
 * `replace(/\D/g, '')`, ASCII lower-casing for `toLowerCase`, the substring test
 * behind `includes`, the blank test behind `trim()`, and decimal rendering of
 * naturals for template literals and `toString`.
 */
module Text {

  predicate IsDigit(c: char) {
    '0' <= c <= '9'
  }

  /** The digits of `s`, in order: what `s.replace(/\D/g, '')` leaves. */
  function Digits(s: string): (r: string)
    ensures |r| <= |s|
    ensures forall i :: 0 <= i < |r| ==> IsDigit(r[i])
  {
    if |s| == 0 then ""
    else if IsDigit(s[0]) then [s[0]] + Digits(s[1..])
    else Digits(s[1..])
  }

  /** Filtering digits distributes over concatenation. */
  lemma {:induction false} DigitsAppend(a: string, b: string)
    ensures Digits(a + b) == Digits(a) + Digits(b)
  {
    if |a| == 0 {
      assert a + b == b;
    } else {
      assert (a + b)[0] == a[0];
      assert (a + b)[1..] == a[1..] + b;
      DigitsAppend(a[1..], b);
    }
  }

  /** A string made only of digits is its own digit filter. */
  lemma {:induction false} DigitsOfDigits(s: string)
    requires forall i :: 0 <= i < |s| ==> IsDigit(s[i])
    ensures Digits(s) == s
  {
    if |s| > 0 {
      DigitsOfDigits(s[1..]);
    }
  }

  /** A string with no digit at all filters to the empty string. */
  lemma {:induction false} DigitsOfNonDigits(s: string)
    requires forall i :: 0 <= i < |s| ==> !IsDigit(s[i])
    ensures Digits(s) == ""
  {
    if |s| > 0 {
      DigitsOfNonDigits(s[1..]);
    }
  }

  /** ASCII-only `toLowerCase` of one character. */
  function LowerChar(c: char): (r: char)
    ensures 'A' <= c <= 'Z' ==> r as int == c as int + 32
    ensures !('A' <= c <= 'Z') ==> r == c
  {
    if 'A' <= c <= 'Z' then (c as int + 32) as char else c
  }

  /** ASCII-only `toLowerCase`: a character-wise map. */
  function Lower(s: string): (r: string)
    ensures |r| == |s|
    ensures forall i :: 0 <= i < |s| ==> r[i] == LowerChar(s[i])
  {
    if |s| == 0 then "" else [LowerChar(s[0])] + Lower(s[1..])
  }

  /** `Lower` commutes with slicing. */
  lemma {:induction false} LowerSlice(s: string, i: nat, j: nat)
    requires i <= j <= |s|
    ensures Lower(s[i..j]) == Lower(s)[i..j]
  {
  }

  /** `n` occurs in `h` starting at offset `i`. */
  predicate OccursAt(h: string, n: string, i: int) {
    0 <= i <= |h| - |n| && h[i..i + |n|] == n
  }

  /** `h.includes(n)`: `n` occurs in `h` at some offset. */
  predicate Contains(h: string, n: string) {
    exists i | 0 <= i <= |h| - |n| :: OccursAt(h, n, i)
  }

  /** The empty string occurs in every string. */
  lemma {:induction false} ContainsEmpty(h: string)
    ensures Contains(h, "")
  {
    assert OccursAt(h, "", 0);
  }

  /** Occurrence is transitive: a part of a part is a part. */
  lemma {:induction false} ContainsTransitive(h: string, m: string, n: string)
    requires Contains(h, m) && Contains(m, n)
    ensures Contains(h, n)
  {
    var i :| 0 <= i <= |h| - |m| && OccursAt(h, m, i);
    var j :| 0 <= j <= |m| - |n| && OccursAt(m, n, j);
    assert h[i..i + |m|] == m && m[j..j + |n|] == n;
    forall k | 0 <= k < |n|
      ensures h[i + j + k] == n[k]
    {
      assert n[k] == m[j + k];
      assert m[j + k] == h[i..i + |m|][j + k];
    }
    assert h[i + j..i + j + |n|] == n;
    assert OccursAt(h, n, i + j);
  }

  /** Lower-casing preserves occurrence. */
  lemma {:induction false} ContainsLower(h: string, n: string)
    requires Contains(h, n)
    ensures Contains(Lower(h), Lower(n))
  {
    var i :| 0 <= i <= |h| - |n| && OccursAt(h, n, i);
    LowerSlice(h, i, i + |n|);
    assert OccursAt(Lower(h), Lower(n), i);
  }

  /** The characters `String.prototype.trim` removes (ASCII white space,
      line terminators and the Unicode space separators). */
  predicate IsWhiteSpace(c: char) {
    || c == ' ' || c == '\t' || c == '\n' || c == '\r' || c == '\U{B}' || c == '\U{C}'
    || c == '\U{A0}' || c == '\U{FEFF}' || c == '\U{1680}' || ('\U{2000}' <= c <= '\U{200A}')
    || c == '\U{2028}' || c == '\U{2029}' || c == '\U{202F}' || c == '\U{205F}' || c == '\U{3000}'
  }

  /** `s.trim() === ''`: the string is empty or white space only. */
  predicate IsBlank(s: string) {
    forall i :: 0 <= i < |s| ==> IsWhiteSpace(s[i])
  }

  function DigitChar(d: nat): (c: char)
    requires d < 10
    ensures IsDigit(c)
  {
    ('0' as int + d) as char
  }

  /** Decimal rendering of a natural, as a template literal or `toString` writes it. */
  function NatToString(n: nat): (r: string)
    ensures |r| > 0
    ensures forall i :: 0 <= i < |r| ==> IsDigit(r[i])
    ensures n < 10 ==> |r| == 1
    ensures n >= 10 ==> r[0] != '0'
  {
    if n < 10 then [DigitChar(n)] else NatToString(n / 10) + [DigitChar(n % 10)]
  }

  /** The value a decimal string denotes. */
  function DigitsValue(s: string): nat
    requires forall i :: 0 <= i < |s| ==> IsDigit(s[i])
  {
    if |s| == 0 then 0
    else
      var last := s[|s| - 1];
      assert IsDigit(last);
      DigitsValue(s[..|s| - 1]) * 10 + (last as int - '0' as int)
  }

  /** Rendering is faithful: reading the digits back gives the number. */
  lemma {:induction false} NatToStringValue(n: nat)
    ensures DigitsValue(NatToString(n)) == n
  {
    if n >= 10 {
      var s := NatToString(n);
      assert s[..|s| - 1] == NatToString(n / 10);
      NatToStringValue(n / 10);
    }
  }

  /** `Number.prototype.toString` for integers (no fractions or exponents). */
  function IntToString(n: int): (r: string)
    ensures |r| > 0
    ensures n >= 0 ==> r == NatToString(n)
    ensures n < 0 ==> r == "-" + NatToString(-n)
  {
    if n >= 0 then NatToString(n) else "-" + NatToString(-n)
  }
}

=== FILE: wrappers.dfy ===
/** Optional values: the model's stand-in for JavaScript's `undefined` / `null`. */
module Wrappers {

  datatype Option<+T> = None | Some(value: T) {

    /** Returns the value held in Some, or the default when None. */
    function GetOr(default: T): T {
      match this
      case Some(v) => v
      case None() => default
    }
  }
}
